=== FILE: README.md ===
# BlueALSA proxy PCM plugin and client library, modelled in Dafny

This project models two parts of bluez-alsa:

- the BlueALSA proxy ALSA PCM plugin, `src/asound/bluealsa-pcm-proxy.c`;
- the device-attach state machine of the small client library, `src/bluealsalib/bluealsa.c`.

The plugin side has these parts:

- One pass of the I/O thread's loop is a pure step over the two ring positions:
  - `io_ptr` wraps at the buffer size;
  - `io_hw_ptr` wraps at the ALSA boundary.
- The FIFO transfer loops are methods with loop invariants. They run over a transcript of what successive `read()`/`write()` calls returned.
- The ioplug callbacks are pure functions over a record holding the fields they touch: `prepare`, `pointer`, `delay` and `poll_revents`.
- So are the helpers: `close_transport`, the profile parser, the hardware-constraint arithmetic and `bluealsa_proxy_set_remote_device`.
- All C integer arithmetic is written out with its width, except where listed under "Left out". `snd_pcm_uframes_t` is a 64-bit unsigned value and `unsigned int` a 32-bit one, on an LP64 target. The under-run sentinel `io_ptr = -1` is therefore 2^64-1, which the pointer callback hands back to ALSA as -1.

The library side has these parts:

- A handle is a record: the watched address, the profile, the daemon connection, the FIFO descriptor, the transport last opened, and whether the transport mutex is held.
- Every daemon request is an oracle. Its answer is a parameter, and the requests an operation makes are returned as a log of `Call`s. So "nothing was opened" and "the transport was closed" are statements about the log.
- An operation that would lock a mutex that is already held returns `Deadlocked`.
- `event2string` is modelled with a decoder that inverts it.

Modules:

- `Machine`, `Posix`, `Common` and `ModArith` (machine.dfy) hold fixed-width arithmetic, the Linux errno and poll values, shared types and remainder lemmas.
- `IoThread` (iothread.dfy) holds the I/O thread iteration.
- `Proxy` (proxy.dfy) holds the callbacks and helpers.
- `Client` (client.dfy) holds the attach state machine.
- `Events` (events.dfy) holds the event-mask formatter.

Two behaviours of the code are easy to misread. The model follows the code in both:

- `update_device_attach_state` returns the number of listed transports, not -1, when the open request fails. `ret` still holds the listing's count at that point.
- `bluezalsa_set_device`'s previous-address path sets `snd_fd = -1` without closing the descriptor (`Client.SetDeviceForgetsFifo`).

The flag values of `enum ba_event` (1, 2, 4, 8, 16) come from the daemon's control-protocol header, `shared/ctl-proto.h`. That header is not part of this model.

## Model

| member | source | states |
|---|---|---|
| Common.ProfileOfCode | src/bluealsalib/bluealsa.h:19-23 | the numeric type codes 0, 1, 2 and only those name a profile (NULL, A2DP, SCO), and the code of the profile named by `c` is `c` |
| IoThread.Clip | src/asound/bluealsa-pcm-proxy.c:203-214 | the transfer is never longer than a period, and for an in-range `io_ptr` it is exactly min(period_size, buffer_size - io_ptr) |
| IoThread.Plan | src/asound/bluealsa-pcm-proxy.c:199-225 | the clipped transfer never crosses the buffer end, and its byte length is frames * frame_size whenever that fits 64 bits |
| IoThread.PlanAdvancesIoPtr | src/asound/bluealsa-pcm-proxy.c:218-221 | from `io_ptr < buffer_size` the advanced `io_ptr` stays below the buffer size, equals (io_ptr + frames) mod buffer_size, and is 0 when the transfer ends exactly at the buffer end |
| IoThread.PlanAdvancesHwPtr | src/asound/bluealsa-pcm-proxy.c:223-225 | `io_hw_ptr` advances by the same frames but wraps at the boundary, not at the buffer size: it stays below the boundary and equals (io_hw_ptr + frames) mod boundary |
| IoThread.ReadPeriod | src/asound/bluealsa-pcm-proxy.c:231-248 | the capture loop completes exactly when the reads deliver the whole non-empty period, and no read is issued after the period is delivered; it retries EINTR and accumulates partial reads; a 0-byte read (or a 0-byte period) ends it as end-of-stream; any other error ends it with that errno |
| IoThread.WritePeriod | src/asound/bluealsa-pcm-proxy.c:260-271 | the playback do-while issues at least one write, completes only when the writes deliver the whole period, issues no write after the period is delivered, skips EINTR and 0-byte writes, never reports end-of-stream, and stops on the first other error |
| IoThread.Step | src/asound/bluealsa-pcm-proxy.c:187-281 | DISCONNECTED exits the thread; playback under-runs exactly when the advanced `io_hw_ptr` passes `appl_ptr`, storing the sentinel `io_ptr` with the advanced `io_hw_ptr`; otherwise the iteration commits the advanced pointers exactly when the transfer completed, exits exactly on a FIFO error, reopens exactly on a capture end-of-stream, and stays blocked exactly while the FIFO call does |
| IoThread.StepSignals | src/asound/bluealsa-pcm-proxy.c:277-289 | an iteration writes 1 to the event fd exactly when it reaches `sync:` (commit or under-run), 0xDEAD0000 exactly when it leaves through `final:` (DISCONNECTED or a FIFO error), and nothing otherwise; only the exit value has a bit of 0xDEAD0000 |
| IoThread.StepKeepsRing | src/asound/bluealsa-pcm-proxy.c:227-281 | from valid, aligned pointers, any iteration leaves `io_hw_ptr` below the boundary, and `io_ptr` either at the under-run sentinel or below the buffer size with `io_hw_ptr mod buffer_size == io_ptr` |
| IoThread.PlanKeepsAlignment | src/asound/bluealsa-pcm-proxy.c:218-225 | when the boundary is a multiple of the buffer size, the two pointers wrapping at different moduli never drift apart |
| IoThread.RunKeepsRing | src/asound/bluealsa-pcm-proxy.c:184-282 | any sequence of RUNNING iterations keeps the ring invariant of `StepKeepsRing` |
| IoThread.DeliveredPrefix | src/asound/bluealsa-pcm-proxy.c:239-240 | the bytes accumulated by a prefix of the calls never exceed those of the whole transcript |
| Proxy.Prepare | src/asound/bluealsa-pcm-proxy.c:407-415 | both ring positions become 0 and no other field of the plugin changes |
| Proxy.PrepareRestoresRing | src/asound/bluealsa-pcm-proxy.c:407-415 | prepared pointers satisfy the ring invariant of every well-formed configuration |
| Proxy.Pointer | src/asound/bluealsa-pcm-proxy.c:340-346 | -ENODEV without a FIFO, otherwise `io_ptr` as a signed count, which is -1 for the under-run sentinel |
| Proxy.PointerAfterUnderrun | src/asound/bluealsa-pcm-proxy.c:254-258 | after an under-run iteration the pointer callback reports -1 |
| Proxy.PointerAfterCommit | src/asound/bluealsa-pcm-proxy.c:277-279 | after a committed iteration the pointer callback reports a position inside the buffer |
| Proxy.Refreshed | src/asound/bluealsa-pcm-proxy.c:494 | when the 32-bit product does not wrap, the cached delay is the report of `tmp` tenths of a millisecond converted to frames at `rate` and rounded down: frames * 10000 never exceeds rate * tmp and falls short of it by less than 100 * tmp + 10000 |
| Proxy.Delay | src/asound/bluealsa-pcm-proxy.c:464-503 | -ENODEV without a FIFO; otherwise the delay is (appl_ptr - hw_ptr) + FIFO bytes / frame_size + cached delay + delay_ex; the daemon is queried only for a running or draining playback stream, and then when nothing is cached or the pre-incremented counter hits a multiple of rate/10; the counter moves only when a delay is cached; a query that fails (-1) keeps the cached value; no other field changes |
| Proxy.DelayRefreshRateLimited | src/asound/bluealsa-pcm-proxy.c:486-498 | once a delay is cached, k calls query the daemon exactly (c+k)/(rate/10) - c/(rate/10) times, where c is the counter before the calls: at most once every rate/10 calls |
| Proxy.PollRevents | src/asound/bluealsa-pcm-proxy.c:524-564 | -EINVAL unless there is one descriptor; -ENODEV without a FIFO; POLLERR|POLLHUP with -ENODEV exactly when the counter read has a bit of 0xDEAD0000; otherwise 0, and the stream direction's event exactly when POLLIN was seen and frames are available |
| Proxy.PollSeesIteration | src/asound/bluealsa-pcm-proxy.c:536-554 | reading back what one I/O thread iteration wrote, `poll_revents` fails with -ENODEV exactly when the iteration left the loop, and after a commit or under-run with frames available it reports the stream's event; after the exit's `close_transport` (lines 284-289) it still fails with -ENODEV |
| Proxy.ExitBitTestBelowCarry | src/asound/bluealsa-pcm-proxy.c:536-543 | with fewer than 65536 pending notifications the bit test tells an exited thread from a running one |
| Proxy.SpuriousExitDetected | src/asound/bluealsa-pcm-proxy.c:541-543 | 65536 unread notifications make `poll_revents` report a failed device although the thread never exited |
| Proxy.ExitMarkedExact | src/asound/bluealsa-pcm-proxy.c:536-543 | the threshold test `event >= 0xDEAD0000` reports an exit exactly when the thread exited, for any pending count below the mark |
| Proxy.CloseTransport | src/asound/bluealsa-pcm-proxy.c:94-107 | without a transport it returns 0 and changes nothing; otherwise it returns the daemon's answer and drops the FIFO, and nothing else changes |
| Proxy.CloseTransportTwice | src/asound/bluealsa-pcm-proxy.c:97-104 | a second close leaves the plugin as the first left it, but contacts the daemon again because the transport pointer is never cleared |
| Proxy.StrCaseEqMeaning | src/asound/bluealsa-pcm-proxy.c:589-591 | the character-wise `strcasecmp(a, b) == 0` holds exactly when the strings have equal length and agree after ASCII lower-casing |
| Proxy.ParseProfile | src/asound/bluealsa-pcm-proxy.c:584-595 | A2DP exactly for "a2dp" in any letter case, SCO exactly for "sco" in any letter case, and the NULL type for NULL and everything else |
| Proxy.ParseProfileName | src/asound/bluealsa-pcm-proxy.c:584-595 | both profile names parse back to their profile, in lower and in upper case |
| Proxy.MinBytesExact | src/asound/bluealsa-pcm-proxy.c:631-632 | without 32-bit overflow the minimum period is sampling/100 frames (10 ms) and the minimum buffer sampling/5 frames (200 ms), each frame `channels` 2-byte samples |
| Proxy.BufferHoldsTwentyPeriods | src/asound/bluealsa-pcm-proxy.c:626-632 | the minimum buffer holds at least twenty minimum periods |
| Proxy.IssueConstraints | src/asound/bluealsa-pcm-proxy.c:614-650 | the first negative result is returned at once and no later call is made; 0 exactly when every call succeeds |
| Proxy.SetHwConstraint | src/asound/bluealsa-pcm-proxy.c:599-651 | the constraints set are a prefix of the seven in call order (access, format, 2..1024 periods, the period and buffer byte minima, channels, rate); it returns 0 exactly when all seven calls succeed, and all seven are then set; otherwise it returns the error of the last call made, and every earlier call succeeded |
| Proxy.Truncate | src/asound/bluealsa-pcm-proxy.c:799-800 | `strncpy` into an n-char array keeps the first min(len, n) characters |
| Proxy.OpenConnection | src/asound/bluealsa-pcm-proxy.c:717-760 | the reconnection stops at the first failing step and returns its error (the constraint status, else -errno), and 0 when every step succeeds; refused constraints destroy the plugin (the ioplug is deleted, whose close callback frees it), and only then; a failed transport lookup leaves no transport; the FIFO descriptor is replaced exactly when the open request is made, and kept when starting the transport then fails; of a surviving plugin nothing else changes |
| Proxy.OpenConnectionSucceedsExactly | src/asound/bluealsa-pcm-proxy.c:717-760 | with a real errno on each failure, the reconnection returns 0 exactly when every step succeeded, and a plugin without a FIFO gets one exactly when the open request succeeds |
| Proxy.SetRemoteDevice | src/asound/bluealsa-pcm-proxy.c:775-809 | -1 without a plugin; -EINVAL for a NULL device, and -EINVAL with only `str2ba`'s write to the address for a malformed address or an unknown profile; the reconnection happens exactly for a valid address and profile; the plugin is destroyed exactly when the reconnection's constraints are refused, and then the constraint error is returned; otherwise the address, profile, profile name and interface are stored, the old FIFO is closed and replaced by the one the open request returns whenever that request is made, 0 is returned when every reconnection step succeeds, and without an open request the FIFO is -1 whenever there was a transport; no other field of the plugin changes |
| Proxy.SetRemoteDeviceAcceptsNames | src/asound/bluealsa-pcm-proxy.c:787-805 | a well-formed address with either profile name, in any letter case, makes the plugin reconnect with that profile and address, and with a cooperating daemon return 0 with the new FIFO |
| Proxy.SetRemoteDeviceFailureDisconnects | src/asound/bluealsa-pcm-proxy.c:804-805 | when the reconnection keeps the plugin but gets no new FIFO, a plugin that had a transport is left with no FIFO, so the pointer callback reports -ENODEV |
| Proxy.SetRemoteDeviceRejectedDestroys | src/asound/bluealsa-pcm-proxy.c:738-741 | refused constraints during the reconnection leave no plugin and return the constraint error |
| Client.DeviceDetach | src/bluealsalib/bluealsa.c:86-116 | a NULL handle gives -1; with no address or no FIFO it returns 0 with no change and no call; otherwise it closes the transport and the FIFO and marks the handle detached |
| Client.DetachIdempotent | src/bluealsalib/bluealsa.c:97-113 | a second detach is a no-op |
| Client.MatchAsWritten | src/bluealsalib/bluealsa.c:153-180 | the search selects the first eligible entry (same type, CAPTURE or DUPLEX stream), and only when the first list entry's address is the watched one; the candidate's own address is never looked at |
| Client.MatchIntendedMeaning | src/bluealsalib/bluealsa.c:164-179 | the corrected search selects the first eligible entry whose own address is the watched one, and nothing when there is none |
| Client.AddressQuirkPicksOtherDevice | src/bluealsalib/bluealsa.c:175 | as written, another device's capture transport is selected when the watched device is listed first |
| Client.AddressQuirkMissesDevice | src/bluealsalib/bluealsa.c:175 | as written, the watched device's capture transport is missed when another device is listed first |
| Client.UpdateAttachState | src/bluealsalib/bluealsa.c:118-218 | -1 with no request for a NULL handle, no address or no daemon connection; a held mutex blocks; a failed listing returns -1 with the handle unchanged and only the listing requested; at most one transport is opened, as the call right after the listing and only when detached; a new FIFO is the one the open request returned; the address, type and connection never change; the mutex stays held only after a listing and a failed open request |
| Client.NoMatchDetaches | src/bluealsalib/bluealsa.c:182-186 | whenever the search as written selects nothing (no eligible entry, or a first entry belonging to another device), the handle ends detached with its other fields unchanged; the calls are the listing, then the close of the attached transport and FIFO if there was one; the count of listed transports is returned |
| Client.EmptyListingDetaches | src/bluealsalib/bluealsa.c:145-186 | an empty listing leaves the handle unattached and reports 0 |
| Client.AttachOpensCapture | src/bluealsalib/bluealsa.c:194-211 | when the search selects entry m (the first eligible one, anywhere in the list) and the open succeeds, that entry is opened with the CAPTURE stream, the descriptor and the transport are stored under the handle's address, the client is notified, and 0 is returned |
| Client.AttachSkipsPlayback | src/bluealsalib/bluealsa.c:168-180 | for one device listed with playback first and capture second, the capture transport at index 1 is opened |
| Client.AttachedStaysAttached | src/bluealsalib/bluealsa.c:188-192 | an attached, unlocked handle whose transport the search still selects is returned unchanged with status 0, and only the listing is requested |
| Client.AttachIdempotent | src/bluealsalib/bluealsa.c:188-192 | after a successful attach, the same listing again returns 0 and only lists: duplicate events are no-ops |
| Client.OpenFailureDeadlocks | src/bluealsalib/bluealsa.c:199-201 | a failed open returns the transport count with the mutex held, and every later evaluation blocks |
| Client.NoMatchReturnsCount | src/bluealsalib/bluealsa.c:141-186 | a listing of two transports with no match reports 2, not -1 |
| Client.UpdateAttachStateIntended | src/bluealsalib/bluealsa.c:118-218 | with the three corrections, the status is -1 or 0, the mutex is always released, and a newly opened FIFO belongs to an eligible transport of the watched device |
| Client.IntendedNeverDeadlocks | src/bluealsalib/bluealsa.c:213-217 | with the corrections, an evaluation can always be followed by another |
| Client.SetDevice | src/bluealsalib/bluealsa.c:325-381 | -1 with no change for a NULL handle or a type other than A2DP or SCO; a previous address is dropped and its transport closed, but the FIFO is never closed; a NULL address sets the type, returns 0 and does not evaluate the attach state; a malformed address leaves none, keeps the type and returns -1; a valid one is stored with the type, evaluated (listing only with a daemon connection) and reported as 0; the mutex stays held only after a valid address, a daemon connection, a listing and a failed open request; a new FIFO comes only from an open request; a handle with no address never keeps an open FIFO |
| Client.SetDeviceForgetsFifo | src/bluealsalib/bluealsa.c:343-346 | re-targeting an attached handle closes its transport but not its FIFO descriptor, which a detach would have closed |
| Client.SetDeviceAttaches | src/bluealsalib/bluealsa.c:363-372 | setting a device for which the search selects entry m attaches the handle to that entry, opened for capture under the new address |
| Client.SetDeviceOpenFailureDeadlocks | src/bluealsalib/bluealsa.c:367-372 | a failed open during `set_device` still reports 0, and the next `set_device` blocks |
| Events.EventToString | src/bluealsalib/bluealsa.c:48-60 | the text is empty exactly when none of the five known flags is set, and always fits the 256-byte buffer with its terminator |
| Events.DecodeEncode | src/bluealsalib/bluealsa.c:53-60 | reading the text back in the fixed order ADDED, CHANGED, REMOVED, BATTERY, VOLUME recovers exactly the set of raised flags |
| Events.TokensDistinguishable | src/bluealsalib/bluealsa.c:55-59 | no flag's name followed by "|" begins another flag's output |

## Left out

- Threads, signals and the mutex: each operation is atomic, and the mutex is the `locked` flag of a handle. The plugin's static `counter` lives in the plugin record.
- File descriptors and their plumbing are replaced by the values they return:
  - poll, eventfd, FIONREAD and the pipe-size fcntl;
  - the `wait_pcm_fd` reconnection loop (lines 131-177);
  - the daemon's answers during `open_bluez_connection` (a parameter), and closing the old daemon connection in `close_bluez_connection`;
  - the `close()` calls (logged as calls on the library side).
- `snd_pcm_ioplug_delete` after refused constraints is modelled only by its effect: the plugin is gone. What else the close callback releases (the daemon socket and the event fd) is not modelled.
- `asrsync` pacing, `snd_pcm_avail_update` and the ALSA ioplug registration and parameter calls: the constraint calls are a list of values and their results.
- The control-protocol client (`bluealsa_get_transports`, `_open_transport`, `_close_transport`, `_get_transport_delay`) and `str2ba`/`bacmp` are oracles. Their sources are not part of this model.
- The start, stop, pause, drain, close, dump, `hw_params`, `hw_free`, `sw_params`, `poll_descriptors` and `poll_descriptors_count` callbacks and plugin creation: I/O and framework glue. What `hw_params` and `sw_params` store (the frame size and the ALSA boundary) is an input of the I/O thread configuration.
- `bluezalsa_open`, `bluezalsa_close`, `delete_handle`, `monitor_worker_routine`, `bluezalsa_readi` and `bluezalsa_writei`: thread and descriptor set-up, a blocking poll loop, and a stub.
- `malloc`/`strdup` failure in `bluezalsa_set_device` (line 353): allocation is not modelled.
- Strings are sequences of characters. An embedded NUL does not end them.
- The debug float print (line 495) and all logging.
- src/ofono.c, src/ofono-iface.c, src/ofono-iface.h, src/ofono.h and src/bluealsalib/test_lib.c: D-Bus plumbing, introspection tables, prototypes and a demo program.
- IoThread.Step: an iteration under any state other than RUNNING, DRAINING or DISCONNECTED waits for SIGIO first. The model treats it as RUNNING, so the wait itself is not modelled.
- IoThread.RunKeepsRing: the fold stops at the first iteration that does not commit. The iterations after an under-run, which restart from the sentinel `io_ptr`, are not covered.
- IoThread.PlanAdvancesHwPtr: it requires `frames <= boundary` and a boundary that fits a signed long. Outside that range the single conditional subtraction is not reduction modulo the boundary.
- Proxy.Pointer: it states the result only for `io_ptr` below 2^63 and for the sentinel. The model never stores other values.
- Proxy.Delay: the sum is an unbounded integer, so a 64-bit overflow of the long result is not modelled. The static int `counter` is unbounded too, so its overflow is not modelled.
- Proxy.Delay: it requires rate >= 10 whenever the counter test `++counter % (rate / 10)` is reached. For a lower rate the source divides by zero.
- Proxy.MinBytesExact: it holds only when `sampling * 200` and the buffer byte count fit 32 bits. `MinPeriodBytes`/`MinBufferBytes` themselves wrap as the C code does.
- Proxy.SetHwConstraint: the model takes the seven call results as given and does not model what ALSA does with the constraints.
- Proxy.SetRemoteDevice: the interface is a string, so a NULL interface cannot be passed. The source copies it with `strncpy` (line 800), which is undefined for NULL.
- Proxy.SetRemoteDevice: an interface of 256 or more characters is stored as its first 256 characters. In the source, `strncpy` (line 800) then leaves the 256-byte `interface` array without a terminator, and `bluealsa_open` (line 726) reads past it. That overrun is not modelled.
- Client.SetDevice: it composes the as-written `UpdateAttachState`, so the address, lock and status quirks below reach `set_device` too.

## Findings

| source | as written | input that shows it | evidently intended | confidence | as-written member | corrected member |
|---|---|---|---|---|---|---|
| src/bluealsalib/bluealsa.c:175 | the candidate test compares the watched address with `&transports->addr`, the first list entry | list [device A playback A2DP, device B capture A2DP], watching A for A2DP: B's transport is opened under A's address | compare with `&transport->addr`, the candidate | high (not executed) | Client.AddressQuirkPicksOtherDevice | Client.MatchIntendedMeaning |
| src/bluealsalib/bluealsa.c:199-201 | a failed open jumps to `failed`, past the unlock | a matching eligible transport whose open request returns -1 | jump to `failed_locked` so the mutex is released | high (not executed) | Client.OpenFailureDeadlocks | Client.IntendedNeverDeadlocks |
| src/bluealsalib/bluealsa.c:141-217 | `ret` keeps the listing's count, so no match and a failed open return the transport count | two listed transports, none eligible: the result is 2 | -1 on both failure paths | medium (not executed) | Client.NoMatchReturnsCount | Client.UpdateAttachStateIntended |
| src/asound/bluealsa-pcm-proxy.c:541 | the exit test is `event & 0xDEAD0000`, a bit test on an eventfd counter that also counts readiness notifications | 65536 notifications pile up unread: the counter is 0x10000, which shares bit 16 with 0xDEAD0000 | `event >= 0xDEAD0000` | medium (not executed) | Proxy.SpuriousExitDetected | Proxy.ExitMarkedExact |

=== FILE: client.dfy ===
/** The device-attach state machine of the client library
    (src/bluealsalib/bluealsa.c): a handle watches for the transport of one
    Bluetooth device and opens it for capture when the daemon lists it.
    Every daemon request is an oracle: its answer is a parameter, and the
    requests made are returned as a log so that what was (not) opened or
    closed can be stated. The transport mutex is the `locked` flag; an
    operation that would lock it while it is already held never returns. */
module Client {
  import opened Common

  datatype Stream = StreamPlayback | StreamCapture | StreamDuplex

  /** A `struct ba_msg_transport` as the daemon lists it. */
  datatype Transport = Transport(addr: BdAddr, kind: Profile, stream: Stream, codec: int, channels: int, sampling: int)

  /** The fields of `struct bluezalsa_handle` the transitions use. */
  datatype Handle = Handle(
    baFd: int,             // daemon connection, -1 when there is none
    addr: Option<BdAddr>,  // the watched device, None when unset
    kind: Profile,         // the watched profile
    sndFd: int,            // the opened PCM FIFO, -1 when detached
    transport: Transport,  // the transport last opened
    locked: bool)          // transport_mutex held

  /** Every handle the library builds has no open FIFO without an address. */
  predicate Coherent(h: Handle) {
    h.addr.None? ==> h.sndFd == -1
  }

  /** A request the library sends, or a descriptor it acts on. */
  datatype Call =
    | ListTransports
    | OpenTransport(t: Transport)
    | CloseTransport(t: Transport)
    | CloseFd(fd: int)
    | NotifyClient  // the write to client_event_fd

  /** The daemon's answers: the transport list (None when the request fails)
      and the descriptor an open request returns (-1 on failure). */
  datatype Daemon = Daemon(listing: Option<seq<Transport>>, openFd: int)

  /** How an operation ends: it returns the handle (None for a NULL handle),
      a status and the calls it made, or it blocks forever on the mutex. */
  datatype Outcome = Returned(h: Option<Handle>, ret: int, calls: seq<Call>) | Deadlocked

  // ---------------------------------------------------------------------
  // device_detach (lines 86-116)

  /** A NULL handle fails; a handle with no address or no open FIFO is left
      alone; otherwise the transport is closed and the FIFO dropped. */
  function DeviceDetach(h: Option<Handle>): (o: Outcome)
    ensures h.None? ==> o == Returned(None, -1, [])
    ensures h.Some? ==> o.Returned? && o.ret == 0 && o.h.Some?
    ensures h.Some? && (h.value.addr.None? || h.value.sndFd == -1) ==> o == Returned(h, 0, [])
    ensures h.Some? && h.value.addr.Some? && h.value.sndFd != -1 ==>
              && o.h.value == h.value.(sndFd := -1)
              && o.calls == [CloseTransport(h.value.transport), CloseFd(h.value.sndFd)]
    ensures forall c :: c in o.calls ==> c.CloseTransport? || c.CloseFd?
    ensures h.Some? && Coherent(h.value) ==> Coherent(o.h.value)
  {
    if h.None? then Returned(None, -1, [])
    else
      var hd := h.value;
      if hd.addr.None? || hd.sndFd == -1 then Returned(h, 0, [])
      else Returned(Some(hd.(sndFd := -1)), 0, [CloseTransport(hd.transport), CloseFd(hd.sndFd)])
  }

  /** Detaching twice is detaching once: the second call changes nothing and
      sends nothing. */
  lemma DetachIdempotent(h: Handle)
    ensures var once := DeviceDetach(Some(h));
      DeviceDetach(once.h) == Returned(once.h, 0, [])
  {
  }

  // ---------------------------------------------------------------------
  // Transport selection (lines 152-180)

  /** A listed transport the handle may use: same profile, and a stream the
      handle can capture from. */
  predicate Eligible(t: Transport, kind: Profile) {
    t.kind == kind && (t.stream == StreamCapture || t.stream == StreamDuplex)
  }

  /** The search loop as written: it skips ineligible entries and accepts the
      first eligible one when the watched address equals the address of the
      FIRST listed transport (`&transports->addr`), whatever the candidate's
      own address is. */
  function MatchFrom(ts: seq<Transport>, addr: BdAddr, kind: Profile, idx: nat): (m: Option<nat>)
    requires idx <= |ts|
    decreases |ts| - idx
  {
    if idx == |ts| then None
    else if !Eligible(ts[idx], kind) then MatchFrom(ts, addr, kind, idx + 1)
    else if ts[0].addr == addr then Some(idx)
    else MatchFrom(ts, addr, kind, idx + 1)
  }

  /** What the loop as written selects, stated without the loop: the first
      eligible entry, provided the first entry of the whole list carries the
      watched address; nothing otherwise. */
  lemma {:induction false} MatchAsWritten(ts: seq<Transport>, addr: BdAddr, kind: Profile, idx: nat)
    requires idx <= |ts|
    ensures var m := MatchFrom(ts, addr, kind, idx);
      && (m.Some? <==>
            0 < |ts| && ts[0].addr == addr && exists i :: idx <= i < |ts| && Eligible(ts[i], kind))
      && (m.Some? ==>
            && idx <= m.value < |ts| && Eligible(ts[m.value], kind)
            && forall j :: idx <= j < m.value ==> !Eligible(ts[j], kind))
    decreases |ts| - idx
  {
    if idx < |ts| {
      MatchAsWritten(ts, addr, kind, idx + 1);
      if Eligible(ts[idx], kind) && ts[0].addr != addr {
        assert MatchFrom(ts, addr, kind, idx).None?;
      }
    }
  }

  /** The evidently intended search: the first eligible entry whose own
      address is the watched one. */
  function MatchIntendedFrom(ts: seq<Transport>, addr: BdAddr, kind: Profile, idx: nat): (m: Option<nat>)
    requires idx <= |ts|
    decreases |ts| - idx
  {
    if idx == |ts| then None
    else if Eligible(ts[idx], kind) && ts[idx].addr == addr then Some(idx)
    else MatchIntendedFrom(ts, addr, kind, idx + 1)
  }

  predicate Serves(t: Transport, addr: BdAddr, kind: Profile) {
    Eligible(t, kind) && t.addr == addr
  }

  lemma {:induction false} MatchIntendedMeaning(ts: seq<Transport>, addr: BdAddr, kind: Profile, idx: nat)
    requires idx <= |ts|
    ensures var m := MatchIntendedFrom(ts, addr, kind, idx);
      && (m.Some? <==> exists i :: idx <= i < |ts| && Serves(ts[i], addr, kind))
      && (m.Some? ==>
            && idx <= m.value < |ts| && Serves(ts[m.value], addr, kind)
            && forall j :: idx <= j < m.value ==> !Serves(ts[j], addr, kind))
    decreases |ts| - idx
  {
    if idx < |ts| {
      MatchIntendedMeaning(ts, addr, kind, idx + 1);
    }
  }

  const DEV_A: BdAddr := [0x11, 0x22, 0x33, 0x44, 0x55, 0x66]
  const DEV_B: BdAddr := [0xAA, 0xBB, 0xCC, 0xDD, 0xEE, 0xFF]

  /** As written, a listing whose first entry belongs to the watched device
      makes the loop pick another device's capture transport; the intended
      search picks nothing. */
  lemma AddressQuirkPicksOtherDevice()
    ensures var ts := [Transport(DEV_A, A2dp, StreamPlayback, 0, 2, 48000),
                       Transport(DEV_B, A2dp, StreamCapture, 0, 2, 48000)];
      && MatchFrom(ts, DEV_A, A2dp, 0) == Some(1)
      && ts[1].addr != DEV_A
      && MatchIntendedFrom(ts, DEV_A, A2dp, 0) == None
  {
    MatchIntendedMeaning([Transport(DEV_A, A2dp, StreamPlayback, 0, 2, 48000),
                          Transport(DEV_B, A2dp, StreamCapture, 0, 2, 48000)], DEV_A, A2dp, 0);
  }

  /** As written, the watched device's own capture transport is missed when
      another device is listed first; the intended search finds it. */
  lemma AddressQuirkMissesDevice()
    ensures var ts := [Transport(DEV_B, Sco, StreamCapture, 0, 1, 16000),
                       Transport(DEV_A, A2dp, StreamCapture, 0, 2, 48000)];
      && MatchFrom(ts, DEV_A, A2dp, 0) == None
      && MatchIntendedFrom(ts, DEV_A, A2dp, 0) == Some(1)
  {
    MatchAsWritten([Transport(DEV_B, Sco, StreamCapture, 0, 1, 16000),
                    Transport(DEV_A, A2dp, StreamCapture, 0, 2, 48000)], DEV_A, A2dp, 0);
  }

  // ---------------------------------------------------------------------
  // update_device_attach_state (lines 118-218)

  /** The attach evaluation as written. Guards (NULL handle, no address, no
      daemon connection, failed listing) return -1; no match detaches and
      returns the number of listed transports; a match while attached changes
      nothing; otherwise the match is opened for capture, and on success
      recorded with the handle's own address and signalled to the client. A
      failed open returns with the mutex still held. */
  function UpdateAttachState(h: Option<Handle>, d: Daemon): (o: Outcome)
    ensures h.None? ==> o == Returned(None, -1, [])
    ensures h.Some? ==> (o.Deadlocked? <==> h.value.locked)
    ensures h.Some? && !h.value.locked && (h.value.addr.None? || h.value.baFd == -1) ==>
              o == Returned(h, -1, [])
    ensures o.Returned? && h.Some? && h.value.addr.Some? && h.value.baFd != -1 ==>
              0 < |o.calls| && o.calls[0] == ListTransports && o.h.Some?
    ensures o.Returned? ==> forall i :: 0 <= i < |o.calls| && o.calls[i].OpenTransport? ==>
              i == 1 && h.Some? && h.value.sndFd == -1
    ensures o.Returned? && h.Some? && h.value.sndFd == -1 ==> forall c :: c in o.calls ==> !c.CloseFd?
    ensures o.Returned? && h.Some? && Coherent(h.value) ==> Coherent(o.h.value)
    ensures h.Some? && !h.value.locked && h.value.addr.Some? && h.value.baFd != -1 && d.listing.None? ==>
              o == Returned(h, -1, [ListTransports])
    ensures o.Returned? && o.h.Some? && o.h.value.locked ==>
              && h.Some? && h.value.sndFd == -1 && d.listing.Some? && d.openFd == -1
              && 1 < |o.calls| && o.calls[1].OpenTransport?
    ensures o.Returned? && o.h.Some? && h.Some? && o.h.value.sndFd != -1 && o.h.value.sndFd != h.value.sndFd ==>
              && o.h.value.sndFd == d.openFd && !o.h.value.locked
              && 1 < |o.calls| && o.calls[1].OpenTransport?
    ensures o.Returned? && o.h.Some? && h.Some? ==>
              && o.h.value.addr == h.value.addr && o.h.value.kind == h.value.kind
              && o.h.value.baFd == h.value.baFd
  {
    if h.None? then Returned(None, -1, [])
    else
      var hd := h.value;
      if hd.locked then Deadlocked
      else if hd.addr.None? || hd.baFd == -1 then Returned(h, -1, [])
      else if d.listing.None? then Returned(h, -1, [ListTransports])
      else
        var ts := d.listing.value;
        var m := MatchFrom(ts, hd.addr.value, hd.kind, 0);
        if m.None? then
          var det := DeviceDetach(h);
          Returned(det.h, |ts|, [ListTransports] + det.calls)
        else if hd.sndFd != -1 then Returned(h, 0, [ListTransports])
        else
          MatchAsWritten(ts, hd.addr.value, hd.kind, 0);
          var t := ts[m.value].(stream := StreamCapture);
          if d.openFd == -1 then
            Returned(Some(hd.(locked := true)), |ts|, [ListTransports, OpenTransport(t)])
          else
            Returned(Some(hd.(sndFd := d.openFd, transport := t.(addr := hd.addr.value))), 0,
                     [ListTransports, OpenTransport(t), NotifyClient])
  }

  /** When the search as written finds nothing (no eligible entry, or a first
      entry that belongs to another device), an attached handle is detached:
      its transport is closed and the FIFO dropped; nothing is opened, and the
      count of listed transports is returned. */
  lemma NoMatchDetaches(h: Handle, ts: seq<Transport>, fd: int)
    requires !h.locked && h.addr.Some? && h.baFd != -1
    requires MatchFrom(ts, h.addr.value, h.kind, 0).None?
    ensures var o := UpdateAttachState(Some(h), Daemon(Some(ts), fd));
      && o.Returned? && o.h.Some? && o.h.value.sndFd == -1
      && o.ret == |ts|
      && (forall c :: c in o.calls ==> !c.OpenTransport?)
      && (h.sndFd != -1 ==> CloseTransport(h.transport) in o.calls)
      && o.h.value == h.(sndFd := -1)
      && o.calls == [ListTransports] + (if h.sndFd != -1 then [CloseTransport(h.transport), CloseFd(h.sndFd)] else [])
  {
  }

  /** An empty listing reaches the unattached state and reports 0. */
  lemma EmptyListingDetaches(h: Handle, fd: int)
    requires !h.locked && h.addr.Some? && h.baFd != -1
    ensures var o := UpdateAttachState(Some(h), Daemon(Some([]), fd));
      o.Returned? && o.ret == 0 && o.h.Some? && o.h.value.sndFd == -1
  {
  }

  /** A successful attach opens the entry the search as written selects,
      wherever it sits in the listing: the first eligible one. That entry is
      opened for capture and recorded under the handle's own address, and the
      client is notified. */
  lemma {:induction false} AttachOpensCapture(h: Handle, ts: seq<Transport>, fd: int, m: nat)
    requires !h.locked && h.addr.Some? && h.baFd != -1 && h.sndFd == -1 && fd != -1
    requires MatchFrom(ts, h.addr.value, h.kind, 0) == Some(m)
    ensures m < |ts| && Eligible(ts[m], h.kind) && forall j :: 0 <= j < m ==> !Eligible(ts[j], h.kind)
    ensures var t := ts[m].(stream := StreamCapture);
      UpdateAttachState(Some(h), Daemon(Some(ts), fd))
        == Returned(Some(h.(sndFd := fd, transport := t.(addr := h.addr.value))), 0,
                    [ListTransports, OpenTransport(t), NotifyClient])
  {
    MatchAsWritten(ts, h.addr.value, h.kind, 0);
  }

  /** The usual listing of one device, playback first and capture second:
      the capture transport, at index 1, is the one opened. */
  lemma AttachSkipsPlayback(fd: int)
    requires fd != -1
    ensures var h := Handle(3, Some(DEV_A), A2dp, -1, Transport(DEV_B, Sco, StreamPlayback, 0, 1, 8000), false);
      var ts := [Transport(DEV_A, A2dp, StreamPlayback, 0, 2, 44100),
                 Transport(DEV_A, A2dp, StreamCapture, 0, 2, 44100)];
      UpdateAttachState(Some(h), Daemon(Some(ts), fd))
        == Returned(Some(h.(sndFd := fd, transport := ts[1])), 0,
                    [ListTransports, OpenTransport(ts[1]), NotifyClient])
  {
    var h := Handle(3, Some(DEV_A), A2dp, -1, Transport(DEV_B, Sco, StreamPlayback, 0, 1, 8000), false);
    var ts := [Transport(DEV_A, A2dp, StreamPlayback, 0, 2, 44100),
               Transport(DEV_A, A2dp, StreamCapture, 0, 2, 44100)];
    assert MatchFrom(ts, DEV_A, A2dp, 0) == Some(1);
    AttachOpensCapture(h, ts, fd, 1);
  }

  /** Duplicate events are harmless: evaluating again with the same listing
      after a successful attach returns 0 and opens nothing. */
  lemma AttachIdempotent(h: Handle, d: Daemon)
    requires d.listing.Some?
    requires var o := UpdateAttachState(Some(h), d);
      o.Returned? && o.ret == 0 && o.h.Some? && o.h.value.sndFd != -1
    ensures var h' := UpdateAttachState(Some(h), d).h;
      UpdateAttachState(h', d) == Returned(h', 0, [ListTransports])
  {
    var ts := d.listing.value;
    MatchAsWritten(ts, h.addr.value, h.kind, 0);
  }

  /** An attached handle whose transport the search still selects is left as
      it is: the evaluation only lists and returns 0, whichever entry is
      selected and whatever the daemon would answer to an open. */
  lemma AttachedStaysAttached(h: Handle, ts: seq<Transport>, fd: int)
    requires !h.locked && h.addr.Some? && h.baFd != -1 && h.sndFd != -1
    requires MatchFrom(ts, h.addr.value, h.kind, 0).Some?
    ensures UpdateAttachState(Some(h), Daemon(Some(ts), fd)) == Returned(Some(h), 0, [ListTransports])
  {
  }

  /** As written, a failed open leaves the mutex held: every later evaluation
      blocks forever. */
  lemma OpenFailureDeadlocks(h: Handle, ts: seq<Transport>, later: Daemon)
    requires !h.locked && h.addr.Some? && h.baFd != -1 && h.sndFd == -1
    requires MatchFrom(ts, h.addr.value, h.kind, 0).Some?
    ensures var o := UpdateAttachState(Some(h), Daemon(Some(ts), -1));
      && o.Returned? && o.ret == |ts| && o.h.Some? && o.h.value.locked
      && UpdateAttachState(o.h, later) == Deadlocked
  {
  }

  /** As written, a listing with transports but no match reports their count,
      not -1. */
  lemma NoMatchReturnsCount()
    ensures var h := Handle(3, Some(DEV_A), A2dp, -1, Transport(DEV_A, A2dp, StreamCapture, 0, 2, 48000), false);
      var ts := [Transport(DEV_B, Sco, StreamCapture, 0, 1, 16000),
                 Transport(DEV_B, Sco, StreamPlayback, 0, 1, 16000)];
      UpdateAttachState(Some(h), Daemon(Some(ts), 7)).ret == 2
  {
    var ts := [Transport(DEV_B, Sco, StreamCapture, 0, 1, 16000),
               Transport(DEV_B, Sco, StreamPlayback, 0, 1, 16000)];
    MatchAsWritten(ts, DEV_A, A2dp, 0);
  }

  /** The evaluation with the three defects corrected: each candidate's own
      address is compared, no match and a failed open both report -1, and
      the mutex is released on every path. */
  function UpdateAttachStateIntended(h: Option<Handle>, d: Daemon): (o: Outcome)
    ensures h.None? ==> o == Returned(None, -1, [])
    ensures h.Some? ==> (o.Deadlocked? <==> h.value.locked)
    ensures o.Returned? ==> o.ret == -1 || o.ret == 0
    ensures o.Returned? && o.h.Some? ==> !o.h.value.locked
    ensures o.Returned? && o.h.Some? && h.Some? && o.h.value.sndFd != h.value.sndFd && o.h.value.sndFd != -1 ==>
              && h.value.addr.Some? && d.listing.Some?
              && exists i :: 0 <= i < |d.listing.value| && Serves(d.listing.value[i], h.value.addr.value, h.value.kind)
                   && OpenTransport(d.listing.value[i].(stream := StreamCapture)) in o.calls
  {
    if h.None? then Returned(None, -1, [])
    else
      var hd := h.value;
      if hd.locked then Deadlocked
      else if hd.addr.None? || hd.baFd == -1 then Returned(h, -1, [])
      else if d.listing.None? then Returned(h, -1, [ListTransports])
      else
        var ts := d.listing.value;
        var m := MatchIntendedFrom(ts, hd.addr.value, hd.kind, 0);
        MatchIntendedMeaning(ts, hd.addr.value, hd.kind, 0);
        if m.None? then
          var det := DeviceDetach(h);
          Returned(det.h, -1, [ListTransports] + det.calls)
        else if hd.sndFd != -1 then Returned(h, 0, [ListTransports])
        else
          var t := ts[m.value].(stream := StreamCapture);
          if d.openFd == -1 then Returned(h, -1, [ListTransports, OpenTransport(t)])
          else
            assert OpenTransport(t) in [ListTransports, OpenTransport(t), NotifyClient];
            Returned(Some(hd.(sndFd := d.openFd, transport := t)), 0,
                     [ListTransports, OpenTransport(t), NotifyClient])
  }

  /** With the corrections, a transport is only ever opened for the watched
      device, and the evaluation can always be repeated. */
  lemma IntendedNeverDeadlocks(h: Handle, d: Daemon, later: Daemon)
    requires !h.locked
    ensures var o := UpdateAttachStateIntended(Some(h), d);
      o.Returned? && o.h.Some? && UpdateAttachStateIntended(o.h, later).Returned?
  {
  }

  // ---------------------------------------------------------------------
  // bluezalsa_set_device (lines 325-381)

  predicate SupportedType(typeCode: int) {
    typeCode == ProfileCode(A2dp) || typeCode == ProfileCode(Sco)
  }

  /** `addr` is the address string (None for NULL) and `parsed` what str2ba
      makes of it (None when malformed). A previous address is dropped, its
      transport closed and the FIFO forgotten; a NULL address only sets the
      type; a malformed one fails with no address and the type unchanged; a
      valid one is stored with the type, the mutex released, and the attach
      evaluation run, whose own status is not reported. */
  function SetDevice(h: Option<Handle>, addr: Option<string>, typeCode: int, parsed: Option<BdAddr>, d: Daemon): (o: Outcome)
    ensures h.None? ==> o == Returned(None, -1, [])
    ensures h.Some? && !SupportedType(typeCode) ==> o == Returned(h, -1, [])
    ensures h.Some? && SupportedType(typeCode) ==> (o.Deadlocked? <==> h.value.locked)
    ensures o.Returned? && h.Some? && SupportedType(typeCode) ==>
              && o.h.Some?
              && (h.value.addr.Some? <==> 0 < |o.calls| && o.calls[0] == CloseTransport(h.value.transport))
              && (Coherent(h.value) ==> Coherent(o.h.value) && CloseFd(h.value.sndFd) !in o.calls)
    ensures o.Returned? && h.Some? && SupportedType(typeCode) && addr.None? ==>
              && o.ret == 0 && !o.h.value.locked && o.h.value.addr.None? && o.h.value.sndFd == (if h.value.addr.Some? then -1 else h.value.sndFd)
              && o.h.value.kind == ProfileOfCode(typeCode).value
              && ListTransports !in o.calls
    ensures o.Returned? && h.Some? && SupportedType(typeCode) && addr.Some? && parsed.None? ==>
              && o.ret == -1 && !o.h.value.locked && o.h.value.addr.None? && o.h.value.kind == h.value.kind
              && ListTransports !in o.calls
    ensures o.Returned? && h.Some? && SupportedType(typeCode) && addr.Some? && parsed.Some? ==>
              && o.ret == 0 && o.h.value.addr == parsed && o.h.value.kind == ProfileOfCode(typeCode).value
              && (ListTransports in o.calls <==> h.value.baFd != -1)
    ensures o.Returned? && h.Some? && SupportedType(typeCode) && o.h.value.locked ==>
              && addr.Some? && parsed.Some? && h.value.baFd != -1 && d.listing.Some? && d.openFd == -1
              && exists i :: 0 <= i < |o.calls| && o.calls[i].OpenTransport?
    ensures o.Returned? && h.Some? && SupportedType(typeCode) &&
            o.h.value.sndFd != -1 && o.h.value.sndFd != h.value.sndFd ==>
              && addr.Some? && parsed.Some? && o.h.value.sndFd == d.openFd
              && exists i :: 0 <= i < |o.calls| && o.calls[i].OpenTransport?
  {
    if h.None? then Returned(None, -1, [])
    else if !SupportedType(typeCode) then Returned(h, -1, [])
    else
      var hd := h.value;
      var t := ProfileOfCode(typeCode).value;
      if hd.locked then Deadlocked
      else
        var cleared := if hd.addr.Some? then hd.(addr := None, sndFd := -1) else hd;
        var closing := if hd.addr.Some? then [CloseTransport(hd.transport)] else [];
        if addr.None? then Returned(Some(cleared.(kind := t)), 0, closing)
        else if parsed.None? then Returned(Some(cleared), -1, closing)
        else
          var u := UpdateAttachState(Some(cleared.(addr := parsed, kind := t)), d);
          var calls := closing + u.calls;
          assert u.Returned? && 1 < |u.calls| ==> calls[|closing| + 1] == u.calls[1];
          Returned(u.h, 0, calls)
  }

  /** Re-targeting an attached handle forgets its FIFO without closing the
      descriptor: the old transport is closed at the daemon, but no close of
      the old FIFO is issued. */
  lemma SetDeviceForgetsFifo(h: Handle, typeCode: int)
    requires !h.locked && h.addr.Some? && h.sndFd != -1 && SupportedType(typeCode)
    ensures var o := SetDevice(Some(h), None, typeCode, None, Daemon(None, -1));
      && o == Returned(Some(h.(addr := None, sndFd := -1, kind := ProfileOfCode(typeCode).value)), 0,
                       [CloseTransport(h.transport)])
      && DeviceDetach(Some(h)).calls == [CloseTransport(h.transport), CloseFd(h.sndFd)]
  {
  }

  /** Setting a device for which the search as written selects entry `m`
      attaches the handle to that entry. */
  lemma SetDeviceAttaches(h: Handle, a: BdAddr, s: string, typeCode: int, ts: seq<Transport>, fd: int, m: nat)
    requires !h.locked && h.baFd != -1 && SupportedType(typeCode) && fd != -1
    requires h.addr.None? ==> h.sndFd == -1
    requires MatchFrom(ts, a, ProfileOfCode(typeCode).value, 0) == Some(m)
    ensures var o := SetDevice(Some(h), Some(s), typeCode, Some(a), Daemon(Some(ts), fd));
      && m < |ts| && o.Returned? && o.ret == 0 && o.h.Some?
      && o.h.value.sndFd == fd && o.h.value.addr == Some(a)
      && o.h.value.transport == ts[m].(stream := StreamCapture, addr := a)
  {
    var t := ProfileOfCode(typeCode).value;
    var cleared := if h.addr.Some? then h.(addr := None, sndFd := -1) else h;
    AttachOpensCapture(cleared.(addr := Some(a), kind := t), ts, fd, m);
  }

  /** A failed open during set_device leaves the mutex held, so the next
      set_device blocks. */
  lemma SetDeviceOpenFailureDeadlocks(h: Handle, a: BdAddr, s: string, typeCode: int, ts: seq<Transport>, next: Option<string>, parsed: Option<BdAddr>, later: Daemon)
    requires !h.locked && h.baFd != -1 && SupportedType(typeCode)
    requires h.addr.None? ==> h.sndFd == -1
    requires MatchFrom(ts, a, ProfileOfCode(typeCode).value, 0).Some?
    ensures var o := SetDevice(Some(h), Some(s), typeCode, Some(a), Daemon(Some(ts), -1));
      && o.Returned? && o.ret == 0
      && SetDevice(o.h, next, typeCode, parsed, later) == Deadlocked
  {
    var t := ProfileOfCode(typeCode).value;
    var cleared := if h.addr.Some? then h.(addr := None, sndFd := -1) else h;
    MatchAsWritten(ts, a, t, 0);
  }
}

=== FILE: events.dfy ===
/** The event-mask formatter of the client library (`event2string`,
    src/bluealsalib/bluealsa.c:48-60) and a decoder that inverts it. The flag
    values are the single bits of `enum ba_event` in the daemon's control
    protocol, lowest first. */
module Events {
  import opened Common

  datatype Event = TransportAdded | TransportChanged | TransportRemoved | UpdateBattery | UpdateVolume

  /** The order in which the formatter tests the flags. */
  const Order: seq<Event> := [TransportAdded, TransportChanged, TransportRemoved, UpdateBattery, UpdateVolume]

  function Bit(e: Event): bv32 {
    match e
    case TransportAdded => 0x01
    case TransportChanged => 0x02
    case TransportRemoved => 0x04
    case UpdateBattery => 0x08
    case UpdateVolume => 0x10
  }

  /** The enumerator's spelling, which the macro stringifies. */
  function Name(e: Event): string {
    match e
    case TransportAdded => "BA_EVENT_TRANSPORT_ADDED"
    case TransportChanged => "BA_EVENT_TRANSPORT_CHANGED"
    case TransportRemoved => "BA_EVENT_TRANSPORT_REMOVED"
    case UpdateBattery => "BA_EVENT_UPDATE_BATTERY"
    case UpdateVolume => "BA_EVENT_UPDATE_VOLUME"
  }

  function Token(e: Event): string {
    Name(e) + "|"
  }

  /** The test `(mask & e) == e` of the formatter's macro. */
  predicate Raised(mask: bv32, e: Event) {
    mask & Bit(e) == Bit(e)
  }

  /** The flags known to the formatter: bits 0 to 4. */
  const KNOWN: bv32 := 0x1F

  /** The raised flags from position `i` of `Order` on. */
  function RaisedFrom(mask: bv32, i: nat): set<Event>
    requires i <= |Order|
    decreases |Order| - i
  {
    if i == |Order| then {}
    else (if Raised(mask, Order[i]) then {Order[i]} else {}) + RaisedFrom(mask, i + 1)
  }

  function RaisedFlags(mask: bv32): (r: set<Event>)
    ensures forall e :: e in r <==> Raised(mask, e)
  {
    RaisedFromMeaning(mask, 0);
    RaisedFrom(mask, 0)
  }

  function Position(e: Event): (k: nat)
    ensures k < |Order| && Order[k] == e
  {
    match e
    case TransportAdded => 0
    case TransportChanged => 1
    case TransportRemoved => 2
    case UpdateBattery => 3
    case UpdateVolume => 4
  }

  lemma {:induction false} RaisedFromMeaning(mask: bv32, i: nat)
    requires i <= |Order|
    ensures forall e :: e in RaisedFrom(mask, i) <==> Raised(mask, e) && i <= Position(e)
    decreases |Order| - i
  {
    if i < |Order| {
      RaisedFromMeaning(mask, i + 1);
      forall e
        ensures e in RaisedFrom(mask, i) <==> Raised(mask, e) && i <= Position(e)
      {
        if Position(e) == i {
          assert e == Order[i];
        }
        if e == Order[i] {
          assert Position(e) == i by {
            assert Order[Position(e)] == Order[i];
          }
        }
      }
    }
  }

  /** The formatter's output from flag `i` on: each set flag's name and a
      bar, in order. */
  function EncodeFrom(mask: bv32, i: nat): string
    requires i <= |Order|
    decreases |Order| - i
  {
    if i == |Order| then ""
    else (if Raised(mask, Order[i]) then Token(Order[i]) else "") + EncodeFrom(mask, i + 1)
  }

  function EventToString(mask: bv32): (s: string)
    ensures mask & KNOWN == 0 <==> s == ""
    ensures |s| < 256
  {
    EncodeBound(mask, 0);
    TokensLengthTotal();
    EncodeEmpty(mask, 0);
    NoneRaised(mask);
    EncodeFrom(mask, 0)
  }

  /** Reads bar-terminated names back in the formatter's order; None when the
      text is not a formatter output. */
  function DecodeFrom(s: string, i: nat): (r: Option<set<Event>>)
    requires i <= |Order|
    decreases |Order| - i
  {
    if i == |Order| then (if s == [] then Some({}) else None)
    else
      var t := Token(Order[i]);
      if |t| <= |s| && s[..|t|] == t then
        match DecodeFrom(s[|t|..], i + 1)
        case Some(m) => Some({Order[i]} + m)
        case None => None
      else DecodeFrom(s, i + 1)
  }

  function Decode(s: string): Option<set<Event>> {
    DecodeFrom(s, 0)
  }

  /** No flag's token starts another flag's token, whatever follows it: the
      names part before their ends. */
  lemma TokensDistinguishable(i: nat, j: nat, rest: string)
    requires i < j < |Order|
    ensures var t := Token(Order[i]);
      !(|t| <= |Token(Order[j]) + rest| && (Token(Order[j]) + rest)[..|t|] == t)
  {
    var t, v := Token(Order[i]), Token(Order[j]);
    // the first position where the two names differ
    var k := if i < 3 && j < 3 then 19 else if i < 3 then 9 else 16;
    assert k < |t| && k < |v| && t[k] != v[k];
    assert (v + rest)[k] == v[k];
    PrefixDiffers(t, v + rest, k);
  }

  /** A text that differs from `t` at a position inside both does not start
      with `t`. */
  lemma PrefixDiffers(t: string, u: string, k: nat)
    requires k < |t| && k < |u| && t[k] != u[k]
    ensures !(|t| <= |u| && u[..|t|] == t)
  {
    if |t| <= |u| {
      assert u[..|t|][k] != t[k];
    }
  }

  /** The text from flag `i` on never starts with the token of a flag before
      `i`. */
  lemma {:induction false} EncodeAvoids(mask: bv32, i: nat, j: nat)
    requires j < i <= |Order|
    ensures var t := Token(Order[j]);
      var s := EncodeFrom(mask, i);
      !(|t| <= |s| && s[..|t|] == t)
    decreases |Order| - i
  {
    if i < |Order| {
      var e := Order[i];
      var rest := EncodeFrom(mask, i + 1);
      if Raised(mask, e) {
        assert EncodeFrom(mask, i) == Token(e) + rest;
        TokensDistinguishable(j, i, rest);
      } else {
        assert EncodeFrom(mask, i) == rest;
        EncodeAvoids(mask, i + 1, j);
      }
    }
  }

  /** Decoding the formatter's output from flag `i` on recovers the raised
      flags from `i` on. */
  lemma {:induction false} DecodeEncodeFrom(mask: bv32, i: nat)
    requires i <= |Order|
    ensures DecodeFrom(EncodeFrom(mask, i), i) == Some(RaisedFrom(mask, i))
    decreases |Order| - i
  {
    if i < |Order| {
      var e := Order[i];
      var t := Token(e);
      var rest := EncodeFrom(mask, i + 1);
      DecodeEncodeFrom(mask, i + 1);
      if Raised(mask, e) {
        assert EncodeFrom(mask, i) == t + rest;
        assert (t + rest)[..|t|] == t;
        assert (t + rest)[|t|..] == rest;
        assert RaisedFrom(mask, i) == {e} + RaisedFrom(mask, i + 1);
      } else {
        assert RaisedFrom(mask, i) == RaisedFrom(mask, i + 1);
        assert EncodeFrom(mask, i) == rest;
        if i + 1 < |Order| {
          EncodeAvoids(mask, i + 1, i);
        }
      }
    }
  }

  /** The formatter loses nothing but the unknown bits: decoding its output
      gives back exactly the flags whose bit is set. */
  lemma DecodeEncode(mask: bv32)
    ensures Decode(EventToString(mask)) == Some(RaisedFlags(mask))
  {
    DecodeEncodeFrom(mask, 0);
  }

  lemma {:induction false} EncodeBound(mask: bv32, i: nat)
    requires i <= |Order|
    ensures |EncodeFrom(mask, i)| <= TokensLength(i)
    decreases |Order| - i
  {
    if i < |Order| {
      EncodeBound(mask, i + 1);
    }
  }

  /** The length of all tokens from flag `i` on. */
  function TokensLength(i: nat): nat
    requires i <= |Order|
    decreases |Order| - i
  {
    if i == |Order| then 0 else |Token(Order[i])| + TokensLength(i + 1)
  }

  lemma TokensLengthTotal()
    ensures TokensLength(0) == 126
  {
    assert TokensLength(4) == 23;
    assert TokensLength(2) == 27 + 24 + 23;
  }

  lemma {:induction false} EncodeEmpty(mask: bv32, i: nat)
    requires i <= |Order|
    ensures EncodeFrom(mask, i) == "" <==> forall k :: i <= k < |Order| ==> !Raised(mask, Order[k])
    decreases |Order| - i
  {
    if i < |Order| {
      EncodeEmpty(mask, i + 1);
      var head := if Raised(mask, Order[i]) then Token(Order[i]) else "";
      assert EncodeFrom(mask, i) == head + EncodeFrom(mask, i + 1);
    }
  }

  /** The known bits are clear exactly when no flag is raised. */
  lemma NoneRaised(mask: bv32)
    ensures mask & KNOWN == 0 <==> forall k :: 0 <= k < |Order| ==> !Raised(mask, Order[k])
  {
    KnownBits(mask);
    if mask & KNOWN != 0 {
      if Raised(mask, Order[0]) {
      } else if Raised(mask, Order[1]) {
      } else if Raised(mask, Order[2]) {
      } else if Raised(mask, Order[3]) {
      } else {
        assert Raised(mask, Order[4]);
      }
    }
  }

  lemma KnownBits(mask: bv32)
    ensures mask & KNOWN == 0 <==>
              mask & 1 != 1 && mask & 2 != 2 && mask & 4 != 4 && mask & 8 != 8 && mask & 0x10 != 0x10
  {
  }
}

=== FILE: iothread.dfy ===
/** One iteration of the PCM plugin's I/O thread: the ring-buffer arithmetic of
    src/asound/bluealsa-pcm-proxy.c lines 199-281, plus the read and write loops
    that move one period through the FIFO. The FIFO itself is an oracle: a
    transcript of what successive read()/write() calls returned. */
module IoThread {
  import opened Machine
  import opened Posix
  import ModArith

  datatype Direction = Playback | Capture

  /** `snd_pcm_state_t`, in ALSA's order. */
  datatype PcmState =
    | Open | Setup | Prepared | Running | Xrun | Draining | Paused | Suspended | Disconnected

  /** The values one iteration reads from the ioplug and the plugin record. */
  datatype Config = Config(
    bufferSize: U64,   // io->buffer_size, frames
    boundary: U64,     // pcm->io_hw_boundary, frames
    periodSize: U64,   // io->period_size, frames
    frameSize: U64,    // pcm->frame_size, bytes
    direction: Direction)

  /** The two stored positions: `io_ptr` wraps at the buffer size, `io_hw_ptr`
      at the (larger) boundary. */
  datatype Ring = Ring(ioPtr: U64, hwPtr: U64)

  /** What an iteration computes before touching the FIFO. */
  datatype Transfer = Transfer(frames: U64, bytes: U64, next: Ring)

  /** The configurations ALSA hands the plugin: a non-empty buffer, a period no
      longer than it, and a boundary that is a multiple of the buffer size and
      still fits a signed long. */
  predicate WellFormed(cfg: Config) {
    && 0 < cfg.bufferSize
    && cfg.periodSize <= cfg.bufferSize
    && cfg.bufferSize <= cfg.boundary <= I64_LIMIT
    && cfg.boundary % cfg.bufferSize == 0
  }

  /** Both positions are inside their moduli. */
  predicate Valid(cfg: Config, r: Ring) {
    r.ioPtr < cfg.bufferSize && r.hwPtr < cfg.boundary
  }

  /** The hardware position, reduced to the buffer, is the buffer position. */
  predicate Aligned(cfg: Config, r: Ring)
    requires 0 < cfg.bufferSize
  {
    r.hwPtr % cfg.bufferSize == r.ioPtr
  }

  /** Period clipping and the two pointer advances, in 64-bit unsigned
      arithmetic exactly as the C statements perform them. */
  function Plan(cfg: Config, r: Ring): (t: Transfer)
    ensures r.ioPtr <= cfg.bufferSize ==>
              t.frames == Min(cfg.periodSize, cfg.bufferSize - r.ioPtr)
    ensures r.ioPtr <= cfg.bufferSize ==> r.ioPtr + t.frames <= cfg.bufferSize
    ensures t.frames <= cfg.periodSize
    ensures t.frames * cfg.frameSize < U64_LIMIT ==> t.bytes == t.frames * cfg.frameSize
  {
    var frames := Clip(cfg, r);
    MulU64Exact(frames, cfg.frameSize);
    var io := AddU64(r.ioPtr, frames);
    var io' := if io >= cfg.bufferSize then SubU64(io, cfg.bufferSize) else io;
    var hw := AddU64(r.hwPtr, frames);
    var hw' := if hw >= cfg.boundary then SubU64(hw, cfg.boundary) else hw;
    Transfer(frames, MulU64(frames, cfg.frameSize), Ring(io', hw'))
  }

  /** The period, shortened to the room left before the buffer end. */
  function Clip(cfg: Config, r: Ring): (frames: U64)
    ensures frames <= cfg.periodSize
    ensures r.ioPtr <= cfg.bufferSize ==>
              frames == Min(cfg.periodSize, cfg.bufferSize - r.ioPtr)
  {
    var room := SubU64(cfg.bufferSize, r.ioPtr);
    if room < cfg.periodSize then room else cfg.periodSize
  }

  /** The conditional subtraction is reduction modulo `m` when the advanced
      value is below `2 * m`. */
  lemma WrapIsMod(x: int, m: int)
    requires 0 < m && 0 <= x < 2 * m
    ensures (if x >= m then x - m else x) == x % m
  {
    if x >= m {
      assert x == 1 * m + (x - m);
    } else {
      assert x == 0 * m + x;
    }
  }

  /** The application pointer stays below the buffer size, and a transfer
      that ends exactly at the buffer end wraps it to 0. */
  lemma PlanAdvancesIoPtr(cfg: Config, r: Ring)
    requires r.ioPtr < cfg.bufferSize
    ensures var t := Plan(cfg, r);
      && t.next.ioPtr < cfg.bufferSize
      && t.next.ioPtr == (r.ioPtr + t.frames) % cfg.bufferSize
      && (r.ioPtr + t.frames == cfg.bufferSize ==> t.next.ioPtr == 0)
  {
    var frames := Clip(cfg, r);
    AddU64Exact(r.ioPtr, frames);
    var io := r.ioPtr + frames;
    if io >= cfg.bufferSize {
      SubU64Exact(io, cfg.bufferSize);
    }
    WrapIsMod(io, cfg.bufferSize);
  }

  /** The hardware pointer advances by the same frames but wraps at the
      boundary, not at the buffer size; it stays below the boundary as long as
      it started below it and the boundary fits a signed long. */
  lemma PlanAdvancesHwPtr(cfg: Config, r: Ring)
    requires r.hwPtr < cfg.boundary <= I64_LIMIT
    requires Plan(cfg, r).frames <= cfg.boundary
    ensures var t := Plan(cfg, r);
      && t.next.hwPtr < cfg.boundary
      && t.next.hwPtr == (r.hwPtr + t.frames) % cfg.boundary
  {
    var frames := Clip(cfg, r);
    AddU64Exact(r.hwPtr, frames);
    var hw := r.hwPtr + frames;
    if hw >= cfg.boundary {
      SubU64Exact(hw, cfg.boundary);
    }
    WrapIsMod(hw, cfg.boundary);
  }

  // ---------------------------------------------------------------------
  // The FIFO loops

  /** What one read() or write() call returned: a byte count, or -1 with errno. */
  datatype SysResult = Bytes(n: nat) | Failure(errno: nat)

  /** How a period transfer loop ended. `Starved` means the transcript ran out
      while the loop still needed another call: the thread is blocked in I/O. */
  datatype LoopEnd = Complete | EndOfStream | Fault(errno: nat) | Starved

  /** Bytes moved by the calls of a transcript. */
  function Delivered(calls: seq<SysResult>): nat {
    if |calls| == 0 then 0
    else Delivered(calls[..|calls| - 1]) + Moved(calls[|calls| - 1])
  }

  function Moved(c: SysResult): nat {
    if c.Bytes? then c.n else 0
  }

  /** Every call made progress or was interrupted by a signal (EINTR). */
  predicate Progressing(calls: seq<SysResult>) {
    forall i :: 0 <= i < |calls| ==>
      (calls[i].Bytes? && calls[i].n > 0) || calls[i] == Failure(EINTR)
  }

  /** Every call either moved bytes (possibly none) or was interrupted. */
  predicate NonFatal(calls: seq<SysResult>) {
    forall i :: 0 <= i < |calls| ==> calls[i].Bytes? || calls[i] == Failure(EINTR)
  }

  lemma {:induction false} DeliveredPrefix(calls: seq<SysResult>, k: nat)
    requires k <= |calls|
    ensures Delivered(calls[..k]) <= Delivered(calls)
    decreases |calls|
  {
    if k < |calls| {
      var init := calls[..|calls| - 1];
      assert init[..k] == calls[..k];
      DeliveredPrefix(init, k);
    } else {
      assert calls[..k] == calls;
    }
  }

  lemma DeliveredStep(calls: seq<SysResult>, k: nat)
    requires k < |calls|
    ensures Delivered(calls[..k + 1]) == Delivered(calls[..k]) + Moved(calls[k])
  {
    assert calls[..k + 1][..k] == calls[..k];
  }

  /** The capture loop (lines 231-248): read until the period is complete
      and no further, retry on EINTR, accumulate partial reads; a read of 0
      bytes, or a period of 0 bytes, ends it as end-of-stream. The transcript
      lists the results of the calls the loop makes; the kernel never returns
      more than was asked, so together they deliver at most `len0` bytes. */
  method ReadPeriod(len0: nat, calls: seq<SysResult>) returns (end: LoopEnd, used: nat)
    requires Delivered(calls) <= len0
    ensures used <= |calls|
    ensures end == Complete <==> len0 > 0 && Delivered(calls[..used]) == len0
    ensures end == Complete ==> Progressing(calls[..used])
    ensures end == EndOfStream ==>
              (len0 == 0 && used == 0)
              || (0 < used && calls[used - 1] == Bytes(0) && Progressing(calls[..used - 1]))
    ensures end.Fault? ==>
              && 0 < used && calls[used - 1] == Failure(end.errno) && end.errno != EINTR
              && Progressing(calls[..used - 1])
    ensures end == Starved ==> used == |calls| && Progressing(calls) && Delivered(calls) < len0
    ensures forall k :: 0 < k < used ==> Delivered(calls[..k]) < len0
  {
    var len: nat := len0;
    var ret: int := 0;
    used := 0;
    while true
      invariant used <= |calls|
      invariant len == len0 - Delivered(calls[..used])
      invariant Progressing(calls[..used])
      invariant ret == 0 <==> used == 0
      invariant ret == -1 ==> len > 0
      invariant used > 0 ==> len0 > 0
      invariant forall k :: 0 < k < used ==> Delivered(calls[..k]) < len0
      decreases |calls| - used
    {
      if len == 0 {
        end := if ret == 0 then EndOfStream else Complete;
        return;
      }
      if used == |calls| {
        end := Starved;
        assert calls[..used] == calls;
        return;
      }
      var call := calls[used];
      DeliveredStep(calls, used);
      DeliveredPrefix(calls, used + 1);
      used := used + 1;
      match call
      case Bytes(n) =>
        if n == 0 {
          end := EndOfStream;
          assert calls[..used - 1] == calls[..used][..used - 1];
          return;
        }
        len := len - n;
        ret := n;
      case Failure(e) =>
        if e != EINTR {
          end := Fault(e);
          assert calls[..used - 1] == calls[..used][..used - 1];
          return;
        }
        ret := -1;
    }
  }

  /** The playback loop (lines 261-271): a do-while, so even a 0-byte period
      issues one write() call; EINTR jumps to the loop test; a write of 0
      bytes simply loops again; no write follows the one that completes the
      period. */
  method WritePeriod(len0: nat, calls: seq<SysResult>) returns (end: LoopEnd, used: nat)
    requires Delivered(calls) <= len0
    ensures used <= |calls|
    ensures end != EndOfStream
    ensures end == Complete ==>
              0 < used && Delivered(calls[..used]) == len0 && NonFatal(calls[..used])
    ensures end.Fault? ==>
              && 0 < used && calls[used - 1] == Failure(end.errno) && end.errno != EINTR
              && NonFatal(calls[..used - 1])
    ensures end == Starved ==>
              used == |calls| && NonFatal(calls) && (|calls| == 0 || Delivered(calls) < len0)
    ensures forall k :: 0 < k < used ==> Delivered(calls[..k]) < len0
  {
    var len: nat := len0;
    used := 0;
    while true
      invariant used <= |calls|
      invariant len == len0 - Delivered(calls[..used])
      invariant NonFatal(calls[..used])
      invariant 0 < used ==> len > 0
      invariant forall k :: 0 < k <= used ==> Delivered(calls[..k]) < len0
      decreases |calls| - used
    {
      if used == |calls| {
        end := Starved;
        assert calls[..used] == calls;
        return;
      }
      var call := calls[used];
      DeliveredStep(calls, used);
      DeliveredPrefix(calls, used + 1);
      used := used + 1;
      match call {
        case Bytes(n) =>
          len := len - n;
        case Failure(e) =>
          if e != EINTR {
            end := Fault(e);
            assert calls[..used - 1] == calls[..used][..used - 1];
            return;
          }
      }
      if len == 0 {
        end := Complete;
        return;
      }
    }
  }

  // ---------------------------------------------------------------------
  // One iteration

  /** Where an iteration leaves the thread. */
  datatype StepResult =
    | Commit(ring: Ring)    // label `sync:` reached after a full transfer
    | Underrun(ring: Ring)  // playback under-run: state XRUN, label `sync:` reached, nothing written
    | Reopen                // `goto wait_pcm_fd`: nothing stored
    | Exit                  // `goto final`: transport closed, 0xDEAD0000 signalled
    | Blocked               // still inside read()/write()

  /** One pass of the `for (;;)` body. `io` is how the FIFO loop for this
      iteration's `Plan(cfg, r).bytes` ended (`ReadPeriod` for capture,
      `WritePeriod` for playback); a playback under-run skips the write, so
      `io` is then not consulted. Any state other than RUNNING, DRAINING or
      DISCONNECTED first waits for SIGIO and then transfers regardless. */
  function Step(cfg: Config, r: Ring, state: PcmState, applPtr: U64, io: LoopEnd): (s: StepResult)
    requires cfg.direction == Playback ==> io != EndOfStream
    ensures state == Disconnected ==> s == Exit
    ensures s == Exit ==> state == Disconnected || io.Fault?
    ensures s.Commit? ==> s.ring == Plan(cfg, r).next && io == Complete
    ensures s.Underrun? <==>
              state != Disconnected && cfg.direction == Playback && Plan(cfg, r).next.hwPtr > applPtr
    ensures s.Underrun? ==> s.ring == Ring(U64_MAX, Plan(cfg, r).next.hwPtr)
    ensures state != Disconnected && cfg.direction == Capture && io == EndOfStream ==> s == Reopen
    ensures s == Reopen ==> cfg.direction == Capture
    ensures state != Disconnected && !s.Underrun? ==>
              && (s.Commit? <==> io == Complete) && (s == Blocked <==> io == Starved)
              && (s == Exit <==> io.Fault?) && (s == Reopen <==> io == EndOfStream)
  {
    if state == Disconnected then Exit
    else
      var t := Plan(cfg, r);
      if cfg.direction == Playback && t.next.hwPtr > applPtr then
        Underrun(Ring(U64_MAX, t.next.hwPtr))
      else
        match io
        case Complete => Commit(t.next)
        case EndOfStream => Reopen
        case Fault(_) => Exit
        case Starved => Blocked
  }

  /** The pointers stored in the plugin after an iteration ends. */
  function Stored(r: Ring, s: StepResult): Ring {
    match s
    case Commit(next) => next
    case Underrun(next) => next
    case _ => r
  }

  /** The value written to the plugin's event fd by the iteration (0 when none). */
  function Signalled(s: StepResult): U64 {
    match s
    case Commit(_) => 1
    case Underrun(_) => 1
    case Exit => 0xDEAD_0000
    case _ => 0
  }

  /** What the iteration writes to the event fd: 1 exactly when it reaches
      `sync:` (a committed transfer or an under-run), the exit mark exactly
      when it leaves the loop through `final:` (DISCONNECTED or a FIFO error),
      and nothing when it reopens or is still blocked. Of the values written,
      only the exit mark has a bit of 0xDEAD0000. */
  lemma StepSignals(cfg: Config, r: Ring, state: PcmState, applPtr: U64, io: LoopEnd)
    requires cfg.direction == Playback ==> io != EndOfStream
    ensures var s := Step(cfg, r, state, applPtr, io);
      var underrun := cfg.direction == Playback && Plan(cfg, r).next.hwPtr > applPtr;
      && (Signalled(s) == 1 <==> state != Disconnected && (underrun || io == Complete))
      && (Signalled(s) == 0xDEAD_0000 <==> state == Disconnected || (!underrun && io.Fault?))
      && (Signalled(s) == 0 <==> state != Disconnected && !underrun && (io == EndOfStream || io == Starved))
      && ((Signalled(s) as bv64) & 0xDEAD_0000 != 0 <==> s == Exit)
  {
    SignalBits(Step(cfg, r, state, applPtr, io));
  }

  /** Only the exit mark, of the values an iteration writes, has a bit of
      0xDEAD0000. */
  lemma SignalBits(s: StepResult)
    ensures (Signalled(s) as bv64) & 0xDEAD_0000 != 0 <==> s == Exit
  {
    if s == Exit {
      assert (Signalled(s) as bv64) == 0xDEAD_0000;
    } else if s.Commit? || s.Underrun? {
      assert (Signalled(s) as bv64) == 1;
    } else {
      assert (Signalled(s) as bv64) == 0;
    }
  }

  /** After any iteration the stored hardware position is still below the
      boundary; the buffer position is either the under-run sentinel or still
      below the buffer size, and the hardware position reduced to the buffer
      still equals it, so the two counters never drift apart. */
  lemma StepKeepsRing(cfg: Config, r: Ring, state: PcmState, applPtr: U64, io: LoopEnd)
    requires WellFormed(cfg) && Valid(cfg, r) && Aligned(cfg, r)
    requires cfg.direction == Playback ==> io != EndOfStream
    ensures var s := Step(cfg, r, state, applPtr, io);
      var next := Stored(r, s);
      && next.hwPtr < cfg.boundary
      && (s.Underrun? ==> next.ioPtr == U64_MAX)
      && (!s.Underrun? ==> Valid(cfg, next) && Aligned(cfg, next))
  {
    var s := Step(cfg, r, state, applPtr, io);
    if s.Commit? || s.Underrun? {
      PlanAdvancesIoPtr(cfg, r);
      PlanAdvancesHwPtr(cfg, r);
      if s.Commit? {
        PlanKeepsAlignment(cfg, r);
      }
    }
  }

  /** The drift-free property of one advance: with the boundary a multiple of
      the buffer size, the advanced hardware position reduced to the buffer is
      the advanced buffer position. */
  lemma PlanKeepsAlignment(cfg: Config, r: Ring)
    requires WellFormed(cfg) && Valid(cfg, r) && Aligned(cfg, r)
    ensures Aligned(cfg, Plan(cfg, r).next)
  {
    var frames := Clip(cfg, r);
    PlanAdvancesIoPtr(cfg, r);
    AddU64Exact(r.hwPtr, frames);
    var x := r.hwPtr + frames;
    if x >= cfg.boundary {
      SubU64Exact(x, cfg.boundary);
    }
    ModArith.WrapKeepsResidue(r.hwPtr, r.ioPtr, frames, cfg.bufferSize, cfg.boundary);
  }

  /** Consecutive iterations of a RUNNING thread, each given the application
      pointer and the FIFO outcome it sees. */
  datatype Iteration = Iteration(applPtr: U64, io: LoopEnd)

  predicate Feasible(cfg: Config, its: seq<Iteration>) {
    cfg.direction == Playback ==> forall i :: 0 <= i < |its| ==> its[i].io != EndOfStream
  }

  /** The stored pointers after running the iterations in order: the thread
      keeps going while iterations commit; an under-run stores its pointers and
      leaves RUNNING; any other outcome stores nothing and leaves the loop. */
  function Run(cfg: Config, r: Ring, its: seq<Iteration>): Ring
    requires Feasible(cfg, its)
    decreases |its|
  {
    if |its| == 0 then r
    else
      match Step(cfg, r, Running, its[0].applPtr, its[0].io)
      case Commit(next) => Run(cfg, next, its[1..])
      case Underrun(next) => next
      case _ => r
  }

  /** Any number of iterations started from prepared-or-valid pointers leave
      the hardware position below the boundary and the buffer position either
      the under-run sentinel or below the buffer size and aligned. */
  lemma {:induction false} RunKeepsRing(cfg: Config, r: Ring, its: seq<Iteration>)
    requires WellFormed(cfg) && Valid(cfg, r) && Aligned(cfg, r)
    requires Feasible(cfg, its)
    ensures var final := Run(cfg, r, its);
      && final.hwPtr < cfg.boundary
      && (final.ioPtr == U64_MAX || (Valid(cfg, final) && Aligned(cfg, final)))
    decreases |its|
  {
    if |its| > 0 {
      var s := Step(cfg, r, Running, its[0].applPtr, its[0].io);
      StepKeepsRing(cfg, r, Running, its[0].applPtr, its[0].io);
      if s.Commit? {
        assert Feasible(cfg, its[1..]);
        RunKeepsRing(cfg, s.ring, its[1..]);
      }
    }
  }
}

=== FILE: machine.dfy ===
/** Fixed-width C integer arithmetic on an LP64 target, written out over Dafny's
    unbounded integers. `snd_pcm_uframes_t` and `size_t` are 64-bit unsigned,
    `unsigned int` is 32-bit unsigned; every wrap-around the C code relies on is
    spelled out here. */
module Machine {

  const U32_LIMIT: int := 0x1_0000_0000
  const U64_LIMIT: int := 0x1_0000_0000_0000_0000
  /** 2^63: the first value that no longer fits a signed 64-bit long. */
  const I64_LIMIT: int := 0x8000_0000_0000_0000

  type U32 = x: int | 0 <= x < 0x1_0000_0000
  type U64 = x: int | 0 <= x < 0x1_0000_0000_0000_0000

  /** What `(snd_pcm_uframes_t)-1` stores: all 64 bits set. */
  const U64_MAX: U64 := 0xFFFF_FFFF_FFFF_FFFF
  /** What `(unsigned int)-1` stores. */
  const U32_MAX: U32 := 0xFFFF_FFFF

  function AddU64(a: U64, b: U64): U64 {
    (a + b) % U64_LIMIT
  }

  function SubU64(a: U64, b: U64): U64 {
    (a - b) % U64_LIMIT
  }

  function MulU64(a: U64, b: U64): U64 {
    (a * b) % U64_LIMIT
  }

  function MulU32(a: U32, b: U32): U32 {
    (a * b) % U32_LIMIT
  }

  /** The signed 64-bit value with the same bit pattern (C's conversion of an
      unsigned long to long on a two's-complement target). */
  function AsSigned64(a: U64): int {
    if a < I64_LIMIT then a else a - U64_LIMIT
  }

  lemma AddU64Exact(a: U64, b: U64)
    requires a + b < U64_LIMIT
    ensures AddU64(a, b) == a + b
  {
  }

  lemma SubU64Exact(a: U64, b: U64)
    requires b <= a
    ensures SubU64(a, b) == a - b
  {
  }

  lemma MulU64Exact(a: U64, b: U64)
    ensures a * b < U64_LIMIT ==> MulU64(a, b) == a * b
  {
  }

  lemma MulU32Exact(a: U32, b: U32)
    requires a * b < U32_LIMIT
    ensures MulU32(a, b) == a * b
  {
  }

  function Min(a: int, b: int): int {
    if a <= b then a else b
  }
}

/** The Linux values of the error numbers and poll flags the core uses. */
module Posix {
  const EINTR: nat := 4
  const ENODEV: nat := 19
  const EINVAL: nat := 22

  const POLLIN: bv16 := 0x001
  const POLLOUT: bv16 := 0x004
  const POLLERR: bv16 := 0x008
  const POLLHUP: bv16 := 0x010
}

/** Types shared by the PCM plugin and the client library. */
module Common {

  datatype Option<T> = None | Some(value: T)

  /** A 48-bit Bluetooth device address (`bdaddr_t`), six bytes. */
  type BdAddr = s: seq<bv8> | |s| == 6 witness [0, 0, 0, 0, 0, 0]

  /** `enum pcm_type` of the plugin and `bluezalsa_type` of the library; both
      number NULL, A2DP, SCO as 0, 1, 2, and the library compares them as
      integers. */
  datatype Profile = ProfileNull | A2dp | Sco

  function ProfileCode(p: Profile): (c: int)
    ensures 0 <= c <= 2
  {
    match p
    case ProfileNull => 0
    case A2dp => 1
    case Sco => 2
  }

  /** The profile with the given numeric code, if there is one. */
  function ProfileOfCode(c: int): (r: Option<Profile>)
    ensures r.Some? <==> 0 <= c <= 2
    ensures r.Some? ==> ProfileCode(r.value) == c
  {
    if c == 0 then Some(ProfileNull)
    else if c == 1 then Some(A2dp)
    else if c == 2 then Some(Sco)
    else None
  }
}

/** Facts about Euclidean remainders used by the ring proofs. */
module ModArith {

  lemma MulAtLeast(d: int, n: int)
    requires d >= 1 && n > 0
    ensures d * n >= n
  {
    if d > 1 {
      MulAtLeast(d - 1, n);
      assert d * n == (d - 1) * n + n;
    }
  }

  /** Quotient and remainder are determined by any split of `x`. */
  lemma ModUnique(x: int, n: int, q: int, r: int)
    requires n > 0 && 0 <= r < n && x == q * n + r
    ensures x % n == r && x / n == q
  {
    var q0, r0 := x / n, x % n;
    assert x == q0 * n + r0;
    if q > q0 {
      MulAtLeast(q - q0, n);
      assert false;
    } else if q < q0 {
      MulAtLeast(q0 - q, n);
      assert false;
    }
  }

  /** Adding a multiple of `n` does not change the remainder modulo `n`. */
  lemma ModAddMultiple(x: int, k: int, n: int)
    requires n > 0
    ensures (x + k * n) % n == x % n
  {
    var q, r := x / n, x % n;
    assert x + k * n == (q + k) * n + r;
    ModUnique(x + k * n, n, q + k, r);
  }

  /** Advancing two counters by the same amount, one wrapping at `b` and one
      read modulo `n`, keeps them congruent when `n` divides `b`. */
  lemma WrapKeepsResidue(hw: int, io: int, f: int, n: int, b: int)
    requires 0 < n <= b && b % n == 0
    requires 0 <= hw < b && 0 <= f <= b && hw % n == io
    ensures (if hw + f >= b then hw + f - b else hw + f) % n == (io + f) % n
  {
    var k := b / n;
    assert b == k * n;
    var q := hw / n;
    assert hw == q * n + io;
    ModAddMultiple(io + f, q, n);
    if hw + f >= b {
      ModAddMultiple(hw + f, -k, n);
      assert hw + f - b == hw + f + (-k) * n;
    }
  }

  lemma MulMono(a: int, b: int, c: int)
    requires 0 <= a <= b && 0 <= c
    ensures a * c <= b * c
  {
    assert b * c - a * c == (b - a) * c;
  }

  /** One more unit raises the quotient exactly when it lands on a multiple. */
  lemma DivStep(c: int, m: int)
    requires m > 0
    ensures (c + 1) / m == c / m + (if (c + 1) % m == 0 then 1 else 0)
  {
    var q, r := c / m, c % m;
    assert c == q * m + r;
    if r + 1 < m {
      ModUnique(c + 1, m, q, r + 1);
    } else {
      assert c + 1 == (q + 1) * m + 0;
      ModUnique(c + 1, m, q + 1, 0);
    }
  }

  /** Scaling by `k` and dividing by `k * d` is dividing by `d`. */
  lemma DivCancel(s: int, k: int, d: int)
    requires 0 <= s && 0 < k && 0 < d
    ensures s * k / (k * d) == s / d
  {
    var q, r := s / d, s % d;
    assert s == q * d + r;
    assert s * k == q * (k * d) + r * k;
    MulMono(r, d - 1, k);
    assert r * k < k * d;
    ModUnique(s * k, k * d, q, r * k);
  }

  /** 200 ms worth of frames is at least twenty times 10 ms worth. */
  lemma FifthsCoverHundredths(s: int)
    requires 0 <= s
    ensures s / 5 >= 20 * (s / 100)
  {
    var p, r := s / 100, s % 100;
    assert s == p * 100 + r;
    ModUnique(s, 5, 20 * p + r / 5, r % 5);
  }
}

=== FILE: proxy.dfy ===
/** The ALSA ioplug callbacks and helpers of the BlueALSA proxy PCM plugin
    (src/asound/bluealsa-pcm-proxy.c) that are pure bookkeeping once the
    daemon, the FIFO and the ALSA library are replaced by the values they
    return. */
module Proxy {
  import opened Machine
  import opened Posix
  import opened Common
  import opened IoThread
  import ModArith

  /** The fields of `struct bluealsa_pcm` the modelled callbacks read or write.
      `counter` is the `static int` inside the delay callback, kept here
      because the plugin is a process-wide singleton (`the_pcm`). */
  datatype Plugin = Plugin(
    pcmFd: int,          // -1 when no FIFO is open
    hasTransport: bool,  // pcm->transport != NULL
    ring: Ring,          // io_ptr, io_hw_ptr
    delay: int,          // cached communication/codec delay, frames
    delayEx: int,        // user supplied extra delay, frames
    frameSize: U64,      // bytes per frame
    counter: nat,        // calls since the cached delay became non-zero
    addr: BdAddr,
    kind: Profile,
    profile: string,
    iface: string)

  /** The fields of `snd_pcm_ioplug_t` the callbacks read. */
  datatype Plug = Plug(state: PcmState, direction: Direction, rate: U32, applPtr: U64, hwPtr: U64)

  /** `prepare` (lines 407-415): both ring positions restart at 0 and nothing
      else changes. */
  function Prepare(p: Plugin): (q: Plugin)
    ensures q.ring.ioPtr == 0 && q.ring.hwPtr == 0
    ensures q.(ring := p.ring) == p
  {
    p.(ring := Ring(0, 0))
  }

  /** Prepared pointers satisfy the ring invariants of every well-formed
      configuration. */
  lemma PrepareRestoresRing(cfg: Config, p: Plugin)
    requires WellFormed(cfg)
    ensures Valid(cfg, Prepare(p).ring) && Aligned(cfg, Prepare(p).ring)
  {
  }

  /** `pointer` (lines 340-346): -ENODEV without a FIFO, otherwise `io_ptr`
      returned as a signed frame count. */
  function Pointer(p: Plugin): (r: int)
    ensures p.pcmFd == -1 ==> r == -(ENODEV as int)
    ensures p.pcmFd != -1 && p.ring.ioPtr < I64_LIMIT ==> r == p.ring.ioPtr
    ensures p.pcmFd != -1 && p.ring.ioPtr == U64_MAX ==> r == -1
  {
    if p.pcmFd == -1 then -(ENODEV as int) else AsSigned64(p.ring.ioPtr)
  }

  /** The under-run sentinel reaches ALSA as -1: once an iteration has
      under-run, the pointer callback reports -1, not a position. */
  lemma PointerAfterUnderrun(cfg: Config, p: Plugin, state: PcmState, applPtr: U64, io: LoopEnd)
    requires cfg.direction == Playback ==> io != EndOfStream
    requires p.pcmFd != -1
    requires Step(cfg, p.ring, state, applPtr, io).Underrun?
    ensures Pointer(p.(ring := Stored(p.ring, Step(cfg, p.ring, state, applPtr, io)))) == -1
  {
  }

  /** After a committed iteration from valid pointers, the pointer callback
      reports a position inside the buffer. */
  lemma PointerAfterCommit(cfg: Config, p: Plugin, state: PcmState, applPtr: U64, io: LoopEnd)
    requires WellFormed(cfg) && Valid(cfg, p.ring) && Aligned(cfg, p.ring)
    requires cfg.direction == Playback ==> io != EndOfStream
    requires p.pcmFd != -1
    requires Step(cfg, p.ring, state, applPtr, io).Commit?
    ensures 0 <= Pointer(p.(ring := Stored(p.ring, Step(cfg, p.ring, state, applPtr, io)))) < cfg.bufferSize
  {
    StepKeepsRing(cfg, p.ring, state, applPtr, io);
  }

  // ---------------------------------------------------------------------
  // Delay accounting (lines 461-504)

  predicate Active(state: PcmState) {
    state == Running || state == Draining
  }

  /** The cached delay computed from a daemon report in tenths of a
      millisecond: `(rate / 100) * tmp / 100` in 32-bit unsigned arithmetic.
      Unless the product wraps, it is the report converted to frames and
      rounded down: never more than `tmp` tenths of a millisecond at `rate`,
      and short of it by less than one frame plus 10 ms worth of the rate's
      last two digits. */
  function Refreshed(rate: U32, tenthsMs: U32): (frames: U32)
    ensures (rate / 100) * tenthsMs < U32_LIMIT ==> frames == (rate / 100) * tenthsMs / 100
    ensures (rate / 100) * tenthsMs < U32_LIMIT ==>
              frames * 10000 <= rate * tenthsMs < frames * 10000 + 100 * tenthsMs + 10000
  {
    var f := MulU32(rate / 100, tenthsMs) / 100;
    if (rate / 100) * tenthsMs < U32_LIMIT then
      MulU32Exact(rate / 100, tenthsMs);
      RefreshedScale(rate, tenthsMs);
      f
    else f
  }

  /** Dropping the rate's last two digits, then the product's, loses less
      than `100 * t + 10000` in units of 1/10000 frame. */
  lemma RefreshedScale(rate: nat, t: nat)
    ensures var f := (rate / 100) * t / 100;
      f * 10000 <= rate * t < f * 10000 + 100 * t + 10000
  {
    var q, r := rate / 100, rate % 100;
    var f, s := q * t / 100, q * t % 100;
    assert rate * t == 100 * (q * t) + r * t;
    assert q * t == 100 * f + s;
    assert rate * t == 10000 * f + 100 * s + r * t;
    ModArith.MulMono(r, 99, t);
  }

  datatype DelayReply = DelayReply(ret: int, frames: Option<int>, plugin: Plugin, queried: bool)

  /** Whether this call asks the daemon for the transport delay: only for a
      running or draining playback stream, and then when nothing is cached yet
      or the pre-incremented counter is a multiple of rate/10. */
  predicate QueriesDaemon(p: Plugin, io: Plug)
    requires Active(io.state) && io.direction == Playback && p.delay != 0 ==> io.rate >= 10
  {
    && Active(io.state) && io.direction == Playback
    && (p.delay == 0 || (p.counter + 1) % (io.rate / 10) == 0)
  }

  /** The `delay` callback. `fifo` is what `ioctl(FIONREAD)` reports (None when
      it fails); `reported` is what the daemon's delay query returns, where
      `(unsigned int)-1` is its failure value. */
  function Delay(p: Plugin, io: Plug, fifo: Option<U32>, reported: U32): (d: DelayReply)
    requires p.frameSize > 0
    requires p.pcmFd != -1 && Active(io.state) && io.direction == Playback && p.delay != 0 ==> io.rate >= 10
    ensures p.pcmFd == -1 ==> d == DelayReply(-(ENODEV as int), None, p, false)
    ensures p.pcmFd != -1 ==> d.ret == 0 && d.frames.Some?
    ensures p.pcmFd != -1 && io.applPtr < I64_LIMIT && io.hwPtr < I64_LIMIT ==>
              d.frames.value
              == (io.applPtr - io.hwPtr)
                 + (if fifo.Some? then fifo.value / p.frameSize else 0)
                 + d.plugin.delay + p.delayEx
    ensures d.queried <==> p.pcmFd != -1 && QueriesDaemon(p, io)
    ensures d.plugin.counter
            == p.counter + (if p.pcmFd != -1 && Active(io.state) && io.direction == Playback && p.delay != 0 then 1 else 0)
    ensures d.plugin.delay != p.delay ==> d.queried && reported != U32_MAX
    ensures d.queried && reported != U32_MAX ==> d.plugin.delay == Refreshed(io.rate, reported)
    ensures d.plugin.(delay := p.delay, counter := p.counter) == p
  {
    if p.pcmFd == -1 then DelayReply(-(ENODEV as int), None, p, false)
    else
      var queued := AsSigned64(SubU64(io.applPtr, io.hwPtr));
      var inFifo := if fifo.Some? then fifo.value / p.frameSize else 0;
      var asks := Active(io.state) && io.direction == Playback;
      // `||` short-circuits: the counter moves only when a delay is cached
      var counter := if asks && p.delay != 0 then p.counter + 1 else p.counter;
      var query := QueriesDaemon(p, io);
      var cached := if query && reported != U32_MAX then Refreshed(io.rate, reported) as int else p.delay;
      var q := p.(delay := cached, counter := counter);
      DelayReply(0, Some(queued + inFifo + cached + p.delayEx), q, query)
  }

  /** Daemon queries issued by `k` consecutive delay calls with the same plug
      and the same answers. */
  function QueriesOver(p: Plugin, io: Plug, fifo: Option<U32>, reported: U32, k: nat): nat
    requires p.frameSize > 0 && io.rate >= 10
    decreases k
  {
    if k == 0 then 0
    else
      var d := Delay(p, io, fifo, reported);
      (if d.queried then 1 else 0) + QueriesOver(d.plugin, io, fifo, reported, k - 1)
  }

  /** The refresh is rate-limited: once a non-zero delay is cached, `k` calls
      query the daemon exactly as many times as the counter crosses a multiple
      of rate/10 — at most once every rate/10 calls. */
  lemma {:induction false} DelayRefreshRateLimited(p: Plugin, io: Plug, fifo: Option<U32>, reported: U32, k: nat)
    requires p.frameSize > 0 && io.rate >= 10 && p.pcmFd != -1
    requires Active(io.state) && io.direction == Playback && p.delay != 0
    requires reported == U32_MAX || Refreshed(io.rate, reported) != 0
    ensures QueriesOver(p, io, fifo, reported, k)
            == (p.counter + k) / (io.rate / 10) - p.counter / (io.rate / 10)
    decreases k
  {
    if k > 0 {
      var m := io.rate / 10;
      var d := Delay(p, io, fifo, reported);
      ModArith.DivStep(p.counter, m);
      DelayRefreshRateLimited(d.plugin, io, fifo, reported, k - 1);
      assert d.plugin.counter + (k - 1) == p.counter + k;
    }
  }

  // ---------------------------------------------------------------------
  // poll_revents (lines 524-564)

  /** The value the I/O thread adds to the event counter when it exits. */
  const DEAD_MARK: bv64 := 0xDEAD_0000

  datatype PollReply = PollReply(ret: int, revents: Option<bv16>)

  function DirectionEvent(dir: Direction): bv16 {
    if dir == Capture then POLLIN else POLLOUT
  }

  /** `poll_revents`. `pfdRevents` is what poll() put in the descriptor,
      `event` what eventfd_read() returns (it is only read when POLLIN is
      set), `avail` what `snd_pcm_avail_update` returns. `revents` is None when
      the callback leaves `*revents` unwritten. */
  function PollRevents(p: Plugin, dir: Direction, nfds: U32, pfdRevents: bv16, event: bv64, avail: int): (r: PollReply)
    ensures nfds != 1 ==> r == PollReply(-(EINVAL as int), None)
    ensures nfds == 1 && p.pcmFd == -1 ==> r == PollReply(-(ENODEV as int), None)
    ensures r.revents == Some(POLLERR | POLLHUP) <==>
              nfds == 1 && p.pcmFd != -1 && pfdRevents & POLLIN != 0 && event & DEAD_MARK != 0
    ensures r.revents == Some(POLLERR | POLLHUP) ==> r.ret == -(ENODEV as int)
    ensures r.ret == 0 <==> r.revents.Some? && r.revents.value in {0, DirectionEvent(dir)}
    ensures r.revents == Some(DirectionEvent(dir)) <==>
              && nfds == 1 && p.pcmFd != -1 && pfdRevents & POLLIN != 0
              && event & DEAD_MARK == 0 && avail != 0
    ensures nfds == 1 && p.pcmFd != -1 && pfdRevents & POLLIN == 0 ==> r == PollReply(0, Some(0))
    ensures nfds == 1 && p.pcmFd != -1 && pfdRevents & POLLIN != 0 && event & DEAD_MARK == 0 && avail == 0 ==>
              r == PollReply(0, Some(0))
  {
    if nfds != 1 then PollReply(-(EINVAL as int), None)
    else if p.pcmFd == -1 then PollReply(-(ENODEV as int), None)
    else if pfdRevents & POLLIN != 0 then
      if event & DEAD_MARK != 0 then PollReply(-(ENODEV as int), Some(POLLERR | POLLHUP))
      else if avail == 0 then PollReply(0, Some(0))
      else PollReply(0, Some(DirectionEvent(dir)))
    else PollReply(0, Some(0))
  }

  /** What one I/O thread iteration writes to the event fd, read back by
      `poll_revents`. While the FIFO is still recorded, the callback fails
      with -ENODEV exactly when the iteration left the loop, and a committed
      or under-run iteration wakes ALSA with the stream's event when frames
      are available. An exiting iteration runs `close_transport` (line 288)
      before it writes the exit mark (line 289); with a transport that
      already drops the FIFO, so the callback fails at its `pcm_fd` test
      (line 532) instead, and the result is -ENODEV either way. */
  lemma PollSeesIteration(p: Plugin, dir: Direction, cfg: Config, r: Ring, state: PcmState, applPtr: U64, io: LoopEnd, avail: int, closeRet: int)
    requires p.pcmFd != -1
    requires cfg.direction == Playback ==> io != EndOfStream
    ensures var s := Step(cfg, r, state, applPtr, io);
      var reply := PollRevents(p, dir, 1, POLLIN, Signalled(s) as bv64, avail);
      && (reply.ret == -(ENODEV as int) <==> s == Exit)
      && ((s.Commit? || s.Underrun?) && avail != 0 ==> reply == PollReply(0, Some(DirectionEvent(dir))))
      && (s == Exit ==>
            PollRevents(CloseTransport(p, closeRet).plugin, dir, 1, POLLIN, Signalled(s) as bv64, avail).ret
              == -(ENODEV as int))
  {
    SignalBits(Step(cfg, r, state, applPtr, io));
  }

  /** The event counter after `pending` readiness notifications (each adds 1)
      and, if the thread exited, its exit mark. */
  function EventCounter(pending: bv64, exited: bool): bv64
    requires pending < DEAD_MARK
  {
    pending + (if exited then DEAD_MARK else 0)
  }

  /** Below 65536 pending notifications the bit test tells an exited thread
      from a running one. */
  lemma ExitBitTestBelowCarry(pending: bv64, exited: bool)
    requires pending < 0x1_0000
    ensures EventCounter(pending, exited) & DEAD_MARK != 0 <==> exited
  {
  }

  /** As written, the exit test is a bit test against 0xDEAD0000, which the
      ordinary notifications reach on their own: 65536 unread notifications
      make `poll_revents` report a device failure although the thread runs. */
  lemma SpuriousExitDetected(p: Plugin, dir: Direction)
    requires p.pcmFd != -1
    ensures EventCounter(0x1_0000, false) & DEAD_MARK != 0
    ensures PollRevents(p, dir, 1, POLLIN, EventCounter(0x1_0000, false), 1)
            == PollReply(-(ENODEV as int), Some(POLLERR | POLLHUP))
  {
  }

  /** The evidently intended exit test: the counter has reached the exit mark. */
  predicate ExitMarked(event: bv64) {
    event >= DEAD_MARK
  }

  /** With fewer pending notifications than the mark itself, the intended test
      reports an exit exactly when the thread exited. */
  lemma ExitMarkedExact(pending: bv64, exited: bool)
    requires pending < DEAD_MARK
    ensures ExitMarked(EventCounter(pending, exited)) <==> exited
  {
  }

  // ---------------------------------------------------------------------
  // close_transport (lines 94-107)

  datatype CloseReply = CloseReply(ret: int, plugin: Plugin, daemonCalled: bool)

  /** Without a transport nothing happens; otherwise the daemon is asked to
      close it, its answer is returned and the FIFO descriptor is dropped. The
      transport pointer itself is not cleared. */
  function CloseTransport(p: Plugin, daemonRet: int): (c: CloseReply)
    ensures !p.hasTransport ==> c == CloseReply(0, p, false)
    ensures p.hasTransport ==> c.ret == daemonRet && c.daemonCalled
    ensures c.plugin.pcmFd == (if p.hasTransport then -1 else p.pcmFd)
    ensures c.plugin.(pcmFd := p.pcmFd) == p
  {
    if !p.hasTransport then CloseReply(0, p, false)
    else CloseReply(daemonRet, p.(pcmFd := -1), true)
  }

  /** Closing twice leaves the plugin as closing once did, but because the
      transport pointer survives, the second close contacts the daemon again. */
  lemma CloseTransportTwice(p: Plugin, first: int, second: int)
    ensures var once := CloseTransport(p, first).plugin;
      && CloseTransport(once, second).plugin == once
      && CloseTransport(once, second).daemonCalled == p.hasTransport
  {
  }

  // ---------------------------------------------------------------------
  // Profile names (lines 584-595)

  function LowerAscii(c: char): char {
    if 'A' <= c <= 'Z' then (c as int + 32) as char else c
  }

  /** `strcasecmp(a, b) == 0` for C strings, walked character by character. */
  function StrCaseEq(a: string, b: string): bool
    decreases |a|
  {
    if |a| == 0 || |b| == 0 then |a| == |b|
    else LowerAscii(a[0]) == LowerAscii(b[0]) && StrCaseEq(a[1..], b[1..])
  }

  /** The reference meaning: equal length and equal after ASCII lower-casing. */
  predicate SameIgnoringCase(a: string, b: string) {
    |a| == |b| && forall i :: 0 <= i < |a| ==> LowerAscii(a[i]) == LowerAscii(b[i])
  }

  lemma {:induction false} StrCaseEqMeaning(a: string, b: string)
    ensures StrCaseEq(a, b) <==> SameIgnoringCase(a, b)
    decreases |a|
  {
    if |a| != 0 && |b| != 0 {
      StrCaseEqMeaning(a[1..], b[1..]);
      if SameIgnoringCase(a, b) {
        assert SameIgnoringCase(a[1..], b[1..]) by {
          forall i | 0 <= i < |a| - 1 ensures LowerAscii(a[1..][i]) == LowerAscii(b[1..][i]) {
            assert a[1..][i] == a[i + 1] && b[1..][i] == b[i + 1];
          }
        }
      }
      if StrCaseEq(a, b) {
        forall i | 0 <= i < |a| ensures LowerAscii(a[i]) == LowerAscii(b[i]) {
          if i > 0 {
            assert a[i] == a[1..][i - 1] && b[i] == b[1..][i - 1];
          }
        }
      }
    }
  }

  /** `bluealsa_proxy_parse_profile`: "a2dp" and "sco" in any letter case;
      NULL and everything else give the NULL type. */
  function ParseProfile(profile: Option<string>): (t: Profile)
    ensures t == A2dp <==> profile.Some? && SameIgnoringCase(profile.value, "a2dp")
    ensures t == Sco <==> profile.Some? && SameIgnoringCase(profile.value, "sco")
  {
    if profile.None? then ProfileNull
    else
      StrCaseEqMeaning(profile.value, "a2dp");
      StrCaseEqMeaning(profile.value, "sco");
      if StrCaseEq(profile.value, "a2dp") then A2dp
      else if StrCaseEq(profile.value, "sco") then Sco
      else ProfileNull
  }

  /** The names the parser accepts, in lower case. */
  function ProfileName(t: Profile): string {
    match t
    case ProfileNull => ""
    case A2dp => "a2dp"
    case Sco => "sco"
  }

  function UpperAscii(s: string): (u: string)
    ensures |u| == |s|
    ensures forall i :: 0 <= i < |s| ==> LowerAscii(u[i]) == LowerAscii(s[i])
  {
    if |s| == 0 then ""
    else [if 'a' <= s[0] <= 'z' then (s[0] as int - 32) as char else s[0]] + UpperAscii(s[1..])
  }

  /** Every profile name parses back to its profile, in lower and upper case. */
  lemma ParseProfileName(t: Profile)
    requires t != ProfileNull
    ensures ParseProfile(Some(ProfileName(t))) == t
    ensures ParseProfile(Some(UpperAscii(ProfileName(t)))) == t
  {
  }

  // ---------------------------------------------------------------------
  // Hardware constraints (lines 599-651)

  /** `sampling * 10 / 1000 * channels * 2`: bytes of 10 ms of S16 audio, in
      unsigned int arithmetic. */
  function MinPeriodBytes(sampling: U32, channels: U32): U32 {
    MulU32(MulU32(MulU32(sampling, 10) / 1000, channels), 2)
  }

  /** `sampling * 200 / 1000 * channels * 2`: bytes of 200 ms. */
  function MinBufferBytes(sampling: U32, channels: U32): U32 {
    MulU32(MulU32(MulU32(sampling, 200) / 1000, channels), 2)
  }

  /** Without 32-bit overflow the two minima are exact: the period minimum is
      (sampling / 100) frames and the buffer minimum (sampling / 5) frames, of
      `channels` 2-byte samples. */
  lemma MinBytesExact(sampling: U32, channels: U32)
    requires sampling * 200 < U32_LIMIT && (sampling / 5) * channels * 2 < U32_LIMIT
    ensures MinPeriodBytes(sampling, channels) == (sampling / 100) * channels * 2
    ensures MinBufferBytes(sampling, channels) == (sampling / 5) * channels * 2
  {
    ModArith.MulMono(10, 200, sampling);
    ModArith.MulMono(sampling / 100, sampling / 5, channels * 2);
    assert (sampling / 100) * channels * 2 == (sampling / 100) * (channels * 2);
    assert (sampling / 5) * channels * 2 == (sampling / 5) * (channels * 2);
    ScaledBytesExact(sampling, 10, 100, channels);
    ScaledBytesExact(sampling, 200, 5, channels);
  }

  /** `s * k / 1000 * c * 2` in unsigned int arithmetic, where k * d == 1000,
      is (s / d) * c * 2 when nothing wraps. */
  lemma ScaledBytesExact(s: U32, k: U32, d: int, c: U32)
    requires 0 < k && 0 < d && k * d == 1000
    requires s * k < U32_LIMIT && (s / d) * c * 2 < U32_LIMIT
    ensures MulU32(MulU32(MulU32(s, k) / 1000, c), 2) == (s / d) * c * 2
  {
    MulU32Exact(s, k);
    ModArith.DivCancel(s, k, d);
    var p := s / d;
    assert MulU32(s, k) / 1000 == p;
    var pc := p * c;
    assert 0 <= pc && pc * 2 < U32_LIMIT;
    MulU32Exact(p, c);
    MulU32Exact(pc, 2);
  }

  /** The minimum buffer holds at least twenty minimum periods. */
  lemma BufferHoldsTwentyPeriods(sampling: U32, channels: U32)
    requires sampling * 200 < U32_LIMIT && (sampling / 5) * channels * 2 < U32_LIMIT
    ensures MinBufferBytes(sampling, channels) >= 20 * MinPeriodBytes(sampling, channels)
  {
    MinBytesExact(sampling, channels);
    ModArith.FifthsCoverHundredths(sampling);
    ScaledTwenty(sampling / 100, sampling / 5, channels);
  }

  lemma ScaledTwenty(p: int, b: int, c: int)
    requires 0 <= 20 * p <= b && 0 <= c
    ensures b * c * 2 >= 20 * (p * c * 2)
  {
    ModArith.MulMono(20 * p, b, c * 2);
    assert 20 * (p * c * 2) == (20 * p) * (c * 2);
    assert b * c * 2 == b * (c * 2);
  }

  /** The ioplug parameters the plugin constrains, in call order. */
  datatype Param = Access | Format | Periods | PeriodBytes | BufferBytes | Channels | Rate

  datatype Constraint = Listed(param: Param, values: seq<int>) | Ranged(param: Param, lo: int, hi: int)

  const ACCESS_MMAP_INTERLEAVED: int := 0
  const ACCESS_RW_INTERLEAVED: int := 3
  const FORMAT_S16_LE: int := 2

  /** The seven `snd_pcm_ioplug_set_param_*` calls, in order. */
  function Constraints(sampling: U32, channels: U32): (cs: seq<Constraint>)
    ensures |cs| == 7
    ensures cs[2] == Ranged(Periods, 2, 1024)
    ensures cs[3] == Ranged(PeriodBytes, MinPeriodBytes(sampling, channels), 1024 * 16)
    ensures cs[4] == Ranged(BufferBytes, MinBufferBytes(sampling, channels), 1024 * 1024 * 16)
  {
    [ Listed(Access, [ACCESS_MMAP_INTERLEAVED, ACCESS_RW_INTERLEAVED]),
      Listed(Format, [FORMAT_S16_LE]),
      Ranged(Periods, 2, 1024),
      Ranged(PeriodBytes, MinPeriodBytes(sampling, channels), 1024 * 16),
      Ranged(BufferBytes, MinBufferBytes(sampling, channels), 1024 * 1024 * 16),
      Ranged(Channels, channels, channels),
      Ranged(Rate, sampling, sampling) ]
  }

  datatype ConstraintReply = ConstraintReply(err: int, issued: nat)

  /** Issuing the calls whose results are `results`: the first negative result
      is returned at once and later calls are not made; 0 when all succeed. */
  function IssueConstraints(results: seq<int>): (c: ConstraintReply)
    ensures c.issued <= |results|
    ensures c.err <= 0
    ensures c.err == 0 <==> forall i :: 0 <= i < |results| ==> results[i] >= 0
    ensures c.err == 0 ==> c.issued == |results|
    ensures c.err < 0 ==> 0 < c.issued && results[c.issued - 1] == c.err
    ensures forall i :: 0 <= i < c.issued - 1 ==> results[i] >= 0
    decreases |results|
  {
    if |results| == 0 then ConstraintReply(0, 0)
    else if results[0] < 0 then ConstraintReply(results[0], 1)
    else
      var rest := IssueConstraints(results[1..]);
      assert forall i :: 1 <= i < |results| ==> results[i] == results[1..][i - 1];
      ConstraintReply(rest.err, rest.issued + 1)
  }

  datatype HwReply = HwReply(err: int, made: seq<Constraint>)

  /** `bluealsa_proxy_set_hw_constraint`, given what each of the seven ALSA
      calls would return: the constraints actually set are a prefix of the
      list, all seven exactly on success, and on failure the last one set is
      the call whose error is returned. */
  function SetHwConstraint(sampling: U32, channels: U32, results: seq<int>): (c: HwReply)
    requires |results| == 7
    ensures 0 < |c.made| <= 7 && c.made == Constraints(sampling, channels)[..|c.made|]
    ensures c.err == 0 <==> forall i :: 0 <= i < 7 ==> results[i] >= 0
    ensures c.err == 0 ==> c.made == Constraints(sampling, channels)
    ensures c.err != 0 ==> c.err < 0 && c.err == results[|c.made| - 1]
    ensures forall i :: 0 <= i < |c.made| - 1 ==> results[i] >= 0
  {
    var r := IssueConstraints(results);
    var cs := Constraints(sampling, channels);
    assert cs[..7] == cs;
    HwReply(r.err, cs[..r.issued])
  }

  // ---------------------------------------------------------------------
  // bluealsa_proxy_set_remote_device (lines 775-809)

  const PROFILE_STR_MAXLEN: nat := 16
  const INTERFACE_STR_MAXLEN: nat := 256

  /** What `strncpy` into a fixed array of `n` chars keeps. */
  function Truncate(s: string, n: nat): (t: string)
    ensures |t| == Min(|s|, n) && t == s[..|t|]
  {
    if |s| <= n then s else s[..n]
  }

  /** What `str2ba` returned and what it left in the address it was given. */
  datatype Str2ba = Str2ba(status: int, written: BdAddr)

  /** The daemon's answers during `open_bluez_connection` (lines 716-760),
      in the order the function asks: the connection descriptor (-1 on
      failure), whether the transport was found, the hardware-constraint
      status, the FIFO descriptor (-1 on failure), the status of the request
      that starts the transport (-1 on failure), and errno after the failing
      call. */
  datatype Reconnect = Reconnect(daemonFd: int, transportFound: bool, constraintRet: int,
                                 fifoFd: int, pauseRet: int, errno: nat)

  /** The FIFO open request is reached: connection, transport and
      constraints all succeeded. */
  predicate FifoRequested(rc: Reconnect) {
    rc.daemonFd != -1 && rc.transportFound && rc.constraintRet >= 0
  }

  /** The hardware constraints are refused after the transport was found:
      the function then deletes the ioplug, whose close callback (lines
      348-359) frees the plugin and clears `the_pcm`. */
  predicate ConstraintsRejected(rc: Reconnect) {
    rc.daemonFd != -1 && rc.transportFound && rc.constraintRet < 0
  }

  /** Every step of the reconnection succeeded. */
  predicate Ready(rc: Reconnect) {
    FifoRequested(rc) && rc.fifoFd != -1 && rc.pauseRet != -1
  }

  /** The plugin is None once it has been destroyed. */
  datatype ReopenReply = ReopenReply(ret: int, plugin: Option<Plugin>)

  /** `open_bluez_connection`: it stops at the first failing step. A failed
      transport lookup leaves no transport; refused constraints destroy the
      plugin; the FIFO descriptor is replaced only once the open request is
      made, and kept even when starting the transport then fails. Of a
      surviving plugin only the transport and the FIFO change. */
  function OpenConnection(p: Plugin, rc: Reconnect): (o: ReopenReply)
    ensures o.plugin.None? <==> ConstraintsRejected(rc)
    ensures ConstraintsRejected(rc) ==> o.ret == rc.constraintRet
    ensures Ready(rc) ==> o == ReopenReply(0, Some(p.(hasTransport := true, pcmFd := rc.fifoFd)))
    ensures !Ready(rc) ==> o.ret <= 0
    ensures !Ready(rc) && !ConstraintsRejected(rc) ==> o.ret == -(rc.errno as int)
    ensures rc.daemonFd == -1 ==> o.plugin == Some(p)
    ensures rc.daemonFd != -1 && o.plugin.Some? ==> o.plugin.value.hasTransport == rc.transportFound
    ensures o.plugin.Some? ==> o.plugin.value.pcmFd == (if FifoRequested(rc) then rc.fifoFd else p.pcmFd)
    ensures o.plugin.Some? ==> o.plugin.value.(pcmFd := p.pcmFd, hasTransport := p.hasTransport) == p
  {
    if rc.daemonFd == -1 then ReopenReply(-(rc.errno as int), Some(p))
    else if !rc.transportFound then ReopenReply(-(rc.errno as int), Some(p.(hasTransport := false)))
    else if rc.constraintRet < 0 then ReopenReply(rc.constraintRet, None)
    else
      var q := p.(hasTransport := true, pcmFd := rc.fifoFd);
      if rc.fifoFd == -1 || rc.pauseRet == -1 then ReopenReply(-(rc.errno as int), Some(q))
      else ReopenReply(0, Some(q))
  }

  /** With the daemon reporting a real errno on every failure, the
      reconnection returns 0 exactly when every step succeeded, and a plugin
      that starts without a FIFO holds one afterwards exactly when the open
      request succeeded. */
  lemma OpenConnectionSucceedsExactly(p: Plugin, rc: Reconnect)
    requires rc.errno > 0
    ensures var o := OpenConnection(p, rc);
      && (o.ret == 0 <==> Ready(rc))
      && (p.pcmFd == -1 && o.plugin.Some? ==>
            (o.plugin.value.pcmFd != -1 <==> FifoRequested(rc) && rc.fifoFd != -1))
  {
  }

  datatype RemoteReply = RemoteReply(ret: int, plugin: Option<Plugin>, reconnected: bool)

  /** The exported set-remote-device entry. `parsed` is str2ba's answer for
      `device`; `rc` are the daemon's answers while the connection is
      reopened. The old connection is closed first (`close_transport`, whose
      status is discarded), so the FIFO is gone unless the reopening gets a
      new one. The plugin is None when there is none, and after refused
      constraints have destroyed it. */
  function SetRemoteDevice(thePcm: Option<Plugin>, iface: string, device: Option<string>,
                           profile: Option<string>, parsed: Str2ba, rc: Reconnect): (r: RemoteReply)
    ensures thePcm.None? ==> r == RemoteReply(-1, None, false)
    ensures thePcm.Some? ==> (r.plugin.None? <==> r.reconnected && ConstraintsRejected(rc))
    ensures thePcm.Some? && device.None? ==> r == RemoteReply(-(EINVAL as int), thePcm, false)
    ensures thePcm.Some? && device.Some? && (parsed.status != 0 || ParseProfile(profile) == ProfileNull) ==>
              r == RemoteReply(-(EINVAL as int), Some(thePcm.value.(addr := parsed.written)), false)
    ensures r.reconnected <==>
              thePcm.Some? && device.Some? && parsed.status == 0 && ParseProfile(profile) != ProfileNull
    ensures r.reconnected && r.plugin.Some? ==>
              && r.plugin.value.addr == parsed.written
              && r.plugin.value.kind == ParseProfile(profile)
              && r.plugin.value.profile == profile.value
              && r.plugin.value.iface == Truncate(iface, INTERFACE_STR_MAXLEN)
              && r.plugin.value.ring == thePcm.value.ring
              && (FifoRequested(rc) ==> r.plugin.value.pcmFd == rc.fifoFd)
    ensures r.reconnected && r.plugin.Some? ==>
              r.plugin.value.(pcmFd := thePcm.value.pcmFd, hasTransport := thePcm.value.hasTransport,
                              addr := thePcm.value.addr, kind := thePcm.value.kind,
                              profile := thePcm.value.profile, iface := thePcm.value.iface)
                == thePcm.value
    ensures r.reconnected && ConstraintsRejected(rc) ==> r.ret == rc.constraintRet
    ensures r.reconnected && Ready(rc) ==>
              r.ret == 0 && r.plugin.Some? && r.plugin.value.pcmFd == rc.fifoFd && r.plugin.value.hasTransport
    ensures r.reconnected && !FifoRequested(rc) && r.plugin.Some? ==>
              r.plugin.value.pcmFd == (if thePcm.value.hasTransport then -1 else thePcm.value.pcmFd)
    ensures r.reconnected && !Ready(rc) ==> r.ret <= 0
    ensures thePcm.Some? && !r.reconnected ==> r.ret < 0 && r.plugin.value.kind == thePcm.value.kind
    ensures thePcm.Some? && device.Some? && r.plugin.Some? ==> r.plugin.value.addr == parsed.written
  {
    if thePcm.None? then RemoteReply(-1, None, false)
    else
      var p := thePcm.value;
      if device.None? then RemoteReply(-(EINVAL as int), thePcm, false)
      else
        // str2ba writes into the plugin's address even when it fails
        var p1 := p.(addr := parsed.written);
        if parsed.status != 0 then RemoteReply(-(EINVAL as int), Some(p1), false)
        else
          var t := ParseProfile(profile);
          if t == ProfileNull then RemoteReply(-(EINVAL as int), Some(p1), false)
          else
            assert |profile.value| <= PROFILE_STR_MAXLEN;
            var p2 := p1.(profile := Truncate(profile.value, PROFILE_STR_MAXLEN),
                          iface := Truncate(iface, INTERFACE_STR_MAXLEN),
                          kind := t);
            // close_bluez_connection: the daemon's answer to the close is ignored
            var closed := CloseTransport(p2, 0).plugin;
            var o := OpenConnection(closed, rc);
            RemoteReply(o.ret, o.plugin, true)
  }

  /** Every profile name, in any letter case, with a well-formed address is
      accepted: the plugin reconnects to the daemon with that profile, and
      when the daemon cooperates the new FIFO is in place and 0 returned. */
  lemma SetRemoteDeviceAcceptsNames(p: Plugin, iface: string, device: string, t: Profile, a: BdAddr, rc: Reconnect)
    requires t != ProfileNull
    ensures var r := SetRemoteDevice(Some(p), iface, Some(device), Some(UpperAscii(ProfileName(t))), Str2ba(0, a), rc);
      && r.reconnected
      && (r.plugin.Some? ==> r.plugin.value.kind == t && r.plugin.value.addr == a)
      && (Ready(rc) ==> r.ret == 0 && r.plugin.Some? && r.plugin.value.pcmFd == rc.fifoFd)
  {
    ParseProfileName(t);
  }

  /** A reconnection that keeps the plugin but does not get a new FIFO leaves
      a plugin that had a transport without one: the pointer callback then
      reports -ENODEV. */
  lemma SetRemoteDeviceFailureDisconnects(p: Plugin, iface: string, device: string, profile: string, a: BdAddr, rc: Reconnect)
    requires p.hasTransport
    requires ParseProfile(Some(profile)) != ProfileNull
    requires !ConstraintsRejected(rc)
    requires !FifoRequested(rc) || rc.fifoFd == -1
    ensures var r := SetRemoteDevice(Some(p), iface, Some(device), Some(profile), Str2ba(0, a), rc);
      && r.reconnected && r.plugin.Some? && r.plugin.value.pcmFd == -1
      && Pointer(r.plugin.value) == -(ENODEV as int)
  {
  }

  /** Refused constraints during the reconnection destroy the plugin: the
      entry returns the constraint error and no plugin remains. */
  lemma SetRemoteDeviceRejectedDestroys(p: Plugin, iface: string, device: string, profile: string, a: BdAddr, rc: Reconnect)
    requires ParseProfile(Some(profile)) != ProfileNull
    requires ConstraintsRejected(rc)
    ensures SetRemoteDevice(Some(p), iface, Some(device), Some(profile), Str2ba(0, a), rc)
              == RemoteReply(rc.constraintRet, None, true)
  {
  }
}
